=== FILE: README.md ===
# Exercise platform: a verified model of its access rules and client logic

This project models the parts of the exercise-catalogue application that can be
stated as pure transitions, and proves what they promise.

- **Backend exercise store.** The FastAPI router for `/exercises` works over two
  PostgreSQL tables. It is modelled as five handlers over an immutable database
  value `Db`. Each handler maps the database, the authenticated user's id and
  the request to either an `HttpError` or its answer; a handler that writes
  answers with a reply plus the new database.
  A table is a map from primary key to row.
- **Request and response shapes.** `ExerciseCreate`, `ExerciseUpdate`,
  `ExerciseResponse`, `UserResponse` and `TokenResponse` are datatypes. A JSON
  body is validated into them by `ParseCreate` and `ParseUpdate`.
- **Browser API client.** `localStorage` is a two-slot `Session`. `fetch` is
  split into the prepared request (`Sent`) and the server's answer, which is an
  input. The client covers status dispatch, the bearer header, the filter query
  string, and login, register and logout.
- **Pages.** The registration validator, the exercises page (filters, form,
  cards) and the route table with its header are modelled as functions of their
  state and their inputs.
- **End to end.** Lemmas connect the layers. The page's filters are the ones the
  server applies. The form's body is the row the server stores. A card's delete
  reaches the server's delete. An expired session and a registration each land
  on the right page.

Modules: `Wrappers`, `Models`, `Schemas`, `ExercisesRouter`, `Api`,
`RegisterPage`, `ExercisesPage`, `App`, `EndToEnd`, one per file.

## Behaviour worth knowing

These points follow the code.

- The backend filters use Python truthiness. A query value of `""` does not
  restrict, just like an absent one.
- The bearer header is sent only when the stored token is truthy, meaning
  present and non-empty. `isAuthenticated` is `!!getToken()`. So an empty
  token counts as signed out, even after a successful login that returned one.
- Editing an exercise whose `difficulty` or `subject` is empty pre-fills the
  form with `'fácil'` / `'álgebra'`. This is because of `||`. Saving the form
  then writes the default back.
- The password length check uses JavaScript's `length`, which counts UTF-16
  code units. Three emoji pass the six-character check (`AstralCharactersCountTwice`).
- A 204 answer to login or register makes `data.access_token` throw on `null`.
  The session is left unchanged.
- The schema's constraints are column widths (`String(255)`, `String(50)`,
  `String(100)`), the foreign key of `created_by` and the primary key. The
  router does not check them. PostgreSQL checks them at commit, and FastAPI
  answers an uncaught database error with 500. The model returns
  `DatabaseError` (500) in those cases. The database is unchanged because
  nothing was committed.
- PostgreSQL's `varchar(n)` does not refuse every over-long value. When the
  characters past `n` are all spaces, it stores the first `n` and succeeds
  (`Models.VarcharAssign`). A title of 255 letters and one space is stored as
  the 255 letters, and the answer is the stored row, because the router
  `refresh`es it. A NUL character is refused in every text column, `Text`
  included. `Models.WriteExercise` states both rules. A truthy listing filter
  holding NUL cannot be bound as a query parameter either, so the listing
  answers 500 (`ExercisesRouter.ListExercises`).

## Model

| member | source | states |
|---|---|---|
| `Schemas.MakeTokenResponse` | backend/app/schemas.py:23-26 | A token response built without a type has `token_type` "bearer" and keeps the token and user it was given |
| `Schemas.UpdateJson` | backend/app/routers/exercises.py:84 | The `exclude_unset` dump holds a member for exactly the supplied fields, each with the supplied value, and nothing else |
| `Schemas.ParseCreate` | backend/app/schemas.py:29-34 | A body validates as `ExerciseCreate` if and only if all five fields are present, and the record then carries the body's values |
| `Schemas.ParseUpdate` | backend/app/schemas.py:36-41 | Every body validates as `ExerciseUpdate`; a field is supplied exactly when the body has it, with its value |
| `Schemas.CreateRoundTrip` | backend/app/schemas.py:29-34 | A full record sent as JSON validates back to itself |
| `Schemas.UpdateRoundTrip` | backend/app/schemas.py:36-41 | A patch dumped with `exclude_unset` validates back to the same patch |
| `Schemas.EmptyBodyIsEmptyUpdate` | backend/app/schemas.py:36-41 | The empty body is a valid update with every field `None`, and dumps to the empty object |
| `Schemas.ResponseCarriesWholeRow` | backend/app/schemas.py:43-51 | An exercise response carries the id, owner, creation time and all five content fields: row and response convert into each other without loss |
| `Schemas.UserResponseOmitsPasswordHash` | backend/app/schemas.py:15-18 | A user response does not depend on the password hash |
| `ExercisesRouter.ListExercises` | backend/app/routers/exercises.py:12-27 | Listing fails with 500 exactly when a truthy filter holds NUL, which the database cannot bind; otherwise it holds every stored row passing both filters and nothing else, each once, newest first, for any caller |
| `ExercisesRouter.MatchingRows` | backend/app/routers/exercises.py:18-27 | The rows of the query are every stored row passing both filters and nothing else, each once, newest first |
| `ExercisesRouter.InsertionPoint` | backend/app/routers/exercises.py:26 | The position for a new row in a newest-first listing has only rows at least as new before it and only older rows after it |
| `ExercisesRouter.FilterSemantics` | backend/app/routers/exercises.py:19-24 | Two filters act as their conjunction; a truthy filter keeps exactly the equal rows; an absent or empty filter keeps all |
| `ExercisesRouter.GetExercise` | backend/app/routers/exercises.py:29-41 | Reading an id fails with 404 exactly when it is not stored, and otherwise returns that row under that id |
| `ExercisesRouter.ReadsIgnoreOwnership` | backend/app/routers/exercises.py:35-41 | The answer to a read is the same for every user |
| `Models.VarcharAssign` | backend/app/models.py:19-23 | A value fits a `String(n)` column exactly when it is at most n long or everything past n is spaces; a fitting value is stored as is, and a longer one as exactly its first n characters, so only spaces are dropped |
| `Models.CutKeepsSpacesInsideWidth` | backend/app/models.py:19-23 | The cut is at the width: `"a   "` in a 2-wide column is stored as `"a "`, and `"a  b"` is refused |
| `Models.WriteExercise` | backend/app/models.py:18-25 | A row is stored exactly when it has no NUL, its owner exists and every width is met up to trailing spaces; the stored row keeps the statement, answer, owner and time, holds each `varchar` value cut to exactly its column's width when longer, meets every constraint, and is the row itself when that already met them |
| `Models.TrailingSpacesAreCut` | backend/app/models.py:19 | A title of 255 letters and a space is stored as the 255 letters; with a letter instead of the space the row is refused |
| `ExercisesRouter.NewRow` | backend/app/routers/exercises.py:49-56 | The new row's content is the body's five fields, its owner the caller and its creation time the current time |
| `ExercisesRouter.CreateExercise` | backend/app/routers/exercises.py:43-60 | Creation fails with 500 exactly when the id is taken, the caller is not a user, a field holds NUL, or a `varchar` field is too long by more than spaces; otherwise it adds exactly one row under the fresh id, owned by the caller at `now`, holding the body's statement and answer, and each `varchar` field cut to exactly its width when longer (all verbatim when it fits), leaves every other row and the users untouched, and answers that stored row |
| `ExercisesRouter.Patch` | backend/app/routers/exercises.py:84-86 | Each content field takes its value from the `exclude_unset` dump when the dump has it and keeps the old one otherwise; owner and creation time are kept |
| `ExercisesRouter.PatchChangesOnlySupplied` | backend/app/routers/exercises.py:83-86 | Field by field, an update writes the supplied value and keeps the old one otherwise; owner and creation time never change |
| `ExercisesRouter.PatchIdentityAndIdempotence` | backend/app/routers/exercises.py:84-86 | The empty patch changes nothing and applying a patch twice equals applying it once |
| `ExercisesRouter.UpdateExercise` | backend/app/routers/exercises.py:62-90 | Update answers 404 for an unknown id, otherwise 403 for a non-owner; for the owner it fails only with 500, and succeeds exactly when the patched row has no NUL, the owner exists and every width is met up to trailing spaces, storing the patched row with each over-long `varchar` value cut to exactly its width (the patched row itself when it meets the constraints) and answering it; keys, other rows and users are unchanged; the only errors are 404, 403 and 500 |
| `ExercisesRouter.EmptyUpdateChangesNothing` | backend/app/schemas.py:36-41 | An empty update by the owner of a valid row succeeds and returns the database unchanged |
| `ExercisesRouter.DeleteExercise` | backend/app/routers/exercises.py:92-114 | Delete answers 404 for an unknown id, otherwise 403 for a non-owner, and otherwise removes exactly that id and leaves every other row unchanged |
| `ExercisesRouter.HandlersPreserveValid` | backend/app/models.py:10-25 | Create, update and delete keep unique emails, the column widths, the absence of NUL and the owner reference of every row |
| `ExercisesRouter.CreateThenGet` | backend/app/routers/exercises.py:57-60 | A created row reads back, for any reader, as the creation returned it |
| `ExercisesRouter.UpdateThenGet` | backend/app/routers/exercises.py:84-90 | An updated row reads back as the update returned it |
| `ExercisesRouter.DeleteThenGet` | backend/app/routers/exercises.py:112-113 | After a delete the id reads as 404 and a second delete answers 404 |
| `ExercisesRouter.NotFoundBeforeForbidden` | backend/app/routers/exercises.py:69-81 | For an unknown id, update and delete answer 404 whoever the caller is |
| `Api.IsAuthenticated` | frontend/src/api.js:90-92 | The session counts as signed in exactly when a non-empty token is stored |
| `Api.GetCurrentUser` | frontend/src/api.js:94-96 | The current user is the stored one, present exactly when one is stored, whether or not a token is |
| `Api.Logout` | frontend/src/api.js:85-88 | After logout the user is not authenticated and there is no current user |
| `Api.RequestHeaders` | frontend/src/api.js:31-38 | Every request has the JSON content type; an `Authorization: Bearer <token>` header is present if and only if a truthy token is stored |
| `Api.Prepare` | frontend/src/api.js:28-43 | The request goes to the API base URL plus the endpoint with the call's method and body, has the JSON content type, and has an `Authorization` header, `Bearer <token>`, exactly when signed in |
| `Api.Classify` | frontend/src/api.js:45-61 | The status classes partition the statuses: 401; other non-2xx; 204; other 2xx |
| `Api.ErrorMessage` | frontend/src/api.js:52-55 | A failed request reports the server's truthy `detail`, or "Erro na requisição" when there is none; an unparseable body reports the parse error |
| `Api.Request` | frontend/src/api.js:28-62 | A 401 signs out, sends the page to `/login` and fails with "Sessão expirada" before any other check; any other status leaves the session alone; 204 yields `null`; a value is returned exactly for another 2xx with a JSON body, and is that body; any status but 401 and 204 with an unparseable body fails with the parse error |
| `Api.StoreAuth` | frontend/src/api.js:64-83 | Login and register succeed exactly on a 2xx JSON body other than 204, then store that token and user without navigating; a failure never stores credentials, and except for a 204 it is `request`'s own rejection |
| `Api.Login` | frontend/src/api.js:75-83 | Login POSTs `{email, password}` to `/auth/login`; it succeeds exactly on a 2xx JSON body other than 204 and then stores that token and user; a 401 signs out and goes to `/login`; any other failure leaves the session as it was and rejects with `request`'s error, or with the `null` error for a 204; only a 401 navigates |
| `Api.Register` | frontend/src/api.js:65-73 | Register POSTs `{email, password}` to `/auth/register`, with the same outcomes and rejections as login |
| `Api.AuthThenLogout` | frontend/src/api.js:90-96 | After a successful login or register with a non-empty token the user is authenticated as the returned user, and a logout undoes it; register and login treat answers alike |
| `Api.AuthRequestShape` | frontend/src/api.js:65-83 | Credentials are POSTed as `{email, password}` to `/auth/login` or `/auth/register` |
| `Api.QueryParams` | frontend/src/api.js:99-102 | A parameter is sent for exactly the truthy filters, with their values, difficulty before subject |
| `Api.Encode` | frontend/src/api.js:104 | The query string is empty exactly when there are no parameters |
| `Api.ExercisesEndpoint` | frontend/src/api.js:99-106 | With no truthy filter the request is exactly `/exercises`; otherwise `/exercises?` followed by the parameters |
| `Api.GetExercisesCall` | frontend/src/api.js:99-106 | Listing is a GET without body of the filtered collection endpoint |
| `Api.CreateExerciseCall` | frontend/src/api.js:112-117 | Creating POSTs to `/exercises` a body that validates back to the record |
| `Api.UpdateExerciseCall` | frontend/src/api.js:119-124 | Updating PUTs to `/exercises/<id>` a body that supplies all five fields with the record's values |
| `Api.DeleteExerciseCall` | frontend/src/api.js:126-130 | Deleting is a DELETE without body of `/exercises/<id>` |
| `Api.GetExerciseCall` | frontend/src/api.js:108-110 | Reading one exercise is a GET without body of `/exercises/<id>` |
| `RegisterPage.Utf16LengthBounds` | frontend/src/pages/Register.jsx:22 | A string of n characters has between n and 2n UTF-16 code units |
| `RegisterPage.AstralCharactersCountTwice` | frontend/src/pages/Register.jsx:22-25 | Three characters outside the Basic Multilingual Plane pass the six-character check |
| `RegisterPage.PasswordProblem` | frontend/src/pages/Register.jsx:17-25 | The passwords pass exactly when they match and have at least six code units; a mismatch is reported before a short length |
| `RegisterPage.HandleSubmit` | frontend/src/pages/Register.jsx:13-37 | `register` is called, with the entered email and password, exactly when the passwords pass; success navigates to `/exercises` with no error, failure shows the error's message; loading ends false; otherwise the check's message is shown |
| `RegisterPage.MismatchReportedFirst` | frontend/src/pages/Register.jsx:17-25 | A short mismatched password reports the mismatch and does not register |
| `RegisterPage.SixCharactersAreEnough` | frontend/src/pages/Register.jsx:22-30 | Matching passwords of six or more characters always reach `register` |
| `ExercisesPage.DefaultsAreOptions` | frontend/src/pages/Exercises.jsx:4-12 | The form's default difficulty and subject are the first options of their lists |
| `ExercisesPage.InitialFields` | frontend/src/pages/Exercises.jsx:7-12 | A new form starts empty with 'fácil' and 'álgebra'; an edit form starts with the exercise's title, statement and answer, and its difficulty and subject when non-empty |
| `ExercisesPage.EditFormShowsExercise` | frontend/src/pages/Exercises.jsx:8-12 | An edit form of an exercise with difficulty and subject set shows exactly its content; an empty one shows the default |
| `ExercisesPage.SubmitCall` | frontend/src/pages/Exercises.jsx:22-28 | Submit sends all five fields, as a PUT to the edited exercise's id when editing and as a POST otherwise |
| `ExercisesPage.HandleFormSubmit` | frontend/src/pages/Exercises.jsx:16-36 | `onSave` runs exactly when the save succeeds; on failure the form stays with the error's message; loading ends false and the fields are kept |
| `ExercisesPage.FilterObject` | frontend/src/pages/Exercises.jsx:203-205 | The filter object has a difficulty or subject key exactly for a non-empty selection, holding it |
| `ExercisesPage.LoadRequestFollowsSelection` | frontend/src/pages/Exercises.jsx:198-207 | The list request is the bare collection exactly when nothing is selected, otherwise one parameter per selection |
| `ExercisesPage.StartLoad` | frontend/src/pages/Exercises.jsx:198-207 | Loading starts with the error cleared, the list, form and filters kept, and a GET of the filtered collection |
| `ExercisesPage.FinishLoad` | frontend/src/pages/Exercises.jsx:207-213 | A load replaces the list on success and shows the error keeping the old list on failure; loading ends false; form and filters are kept |
| `ExercisesPage.SelectDifficulty` | frontend/src/pages/Exercises.jsx:247-250 | Choosing a difficulty keeps the subject, leaves the list and the form alone, and reloads with the new difficulty and the current subject |
| `ExercisesPage.SelectSubject` | frontend/src/pages/Exercises.jsx:260-262 | Choosing a subject keeps the difficulty, leaves the list and the form alone, and reloads with the current difficulty and the new subject |
| `ExercisesPage.OpenNewForm` | frontend/src/pages/Exercises.jsx:239 | The new-exercise button shows the form and changes nothing else (list, loading, error, filters, edited exercise); from a closed form nothing is being edited |
| `ExercisesPage.HandleEdit` | frontend/src/pages/Exercises.jsx:220-223 | Editing shows the form with that exercise as the one edited, so any submit is a PUT of that exercise; list and filters are kept |
| `ExercisesPage.HandleFormClose` | frontend/src/pages/Exercises.jsx:225-228 | Closing hides the form and forgets the edited exercise from any state; list and filters are kept |
| `ExercisesPage.HandleFormSave` | frontend/src/pages/Exercises.jsx:230-233 | Saving closes the form, keeps the list and the filters, and reloads with those filters |
| `ExercisesPage.PageTransitions` | frontend/src/pages/Exercises.jsx:189-233 | The page starts loading with no form; every transition keeps a closed form free of an edited exercise; editing from a closed form opens a form pre-filled with the exercise whose submit updates it; closing and saving hide the form, saving reloads |
| `ExercisesPage.NewFormCreates` | frontend/src/pages/Exercises.jsx:239 | From a closed form the new-exercise button opens an empty form whose submit creates |
| `ExercisesPage.ToggleAnswer` | frontend/src/pages/Exercises.jsx:161 | The answer button flips whether the answer shows and nothing else |
| `ExercisesPage.ToggleTwiceRestores` | frontend/src/pages/Exercises.jsx:125 | Two toggles restore the card; a new card hides the answer |
| `ExercisesPage.HandleDelete` | frontend/src/pages/Exercises.jsx:128-142 | Without confirmation nothing happens and no call is made; with it the exercise's DELETE is made, the list reloads exactly on success, a failure is alerted, and deleting ends false |
| `App.Protected` | frontend/src/App.jsx:8-13 | A protected page renders exactly when authenticated and otherwise redirects to `/login` |
| `App.Route` | frontend/src/App.jsx:50-63 | A page the table renders is the path's landing page, the list only when signed in; a redirect goes to `/exercises`, or to `/login` only for the list while signed out |
| `App.RouteTable` | frontend/src/App.jsx:50-63 | `/login` and `/register` render whatever the session; `/exercises` is protected; every other path redirects to `/exercises` |
| `App.RoutingSettles` | frontend/src/App.jsx:50-63 | Every path reaches its landing page within two redirects: login or register as asked, else the list when signed in and login when not |
| `App.Header` | frontend/src/App.jsx:15-43 | The header shows exactly when authenticated, with the stored user's email |
| `App.HeaderLogout` | frontend/src/App.jsx:19-22 | The header's logout leaves the session signed out with no user and navigates to `/login` |
| `App.LogoutLandsOnLogin` | frontend/src/App.jsx:19-26 | After header logout the login page shows without a header and the list is out of reach |
| `EndToEnd.QueryValue` | backend/app/routers/exercises.py:14-15 | A query parameter is read exactly when the query has one of that name, and the value read is that of the last one |
| `EndToEnd.FiltersReachServer` | frontend/src/pages/Exercises.jsx:203-207 | The server keeps exactly the rows matching every non-empty selection on the page |
| `EndToEnd.FormCreateIsStored` | frontend/src/pages/Exercises.jsx:22-27 | The form's POST body validates to the form's fields, and a successful creation stores them, each over-long `varchar` value cut to exactly its width, verbatim when they fit |
| `EndToEnd.FormUpdateOverwritesAll` | frontend/src/pages/Exercises.jsx:22-25 | An accepted update from the form makes the row's content the form's, each over-long `varchar` value cut to exactly its width, verbatim when they fit |
| `EndToEnd.ClientReadsStoredRow` | frontend/src/api.js:108-110 | `getExercise(id)` resolves to the row the server stores under the id, or rejects with the server's 404 message |
| `EndToEnd.Answer` | backend/app/routers/exercises.py:36-41 | A handler's value reaches the client with the success status and no `detail`; a raised `HTTPException` reaches it with its status and its `detail`; a failed commit is excluded |
| `EndToEnd.FormSubmitReachesServer` | frontend/src/pages/Exercises.jsx:16-36 | Unless the commit fails, the edit form saves exactly when the caller owns an existing row, which then holds the form's fields; otherwise the form shows the server's 404 or 403 message |
| `EndToEnd.CardDeleteReachesServer` | frontend/src/pages/Exercises.jsx:128-142 | A confirmed delete from a card sends the DELETE of that id; the list reloads exactly when the caller owns an existing row, which is then gone; otherwise the server's 404 or 403 message is alerted |
| `EndToEnd.ExpiredSessionLandsOnLogin` | frontend/src/api.js:45-49 | A 401 on any request ends on the login page without a header |
| `EndToEnd.SubmitRegistration` | frontend/src/pages/Register.jsx:27-33 | A submit that does not call `register` leaves the session alone; one that navigates has stored the server's token and user |
| `EndToEnd.RegistrationSignsIn` | frontend/src/pages/Register.jsx:29-31 | A registration that navigates lands on the list, signed in as the returned user, with the header shown |

## Left out

- backend/app/main.py: app construction, CORS, `create_all` and the root and health endpoints are configuration.
- The authentication router, `get_current_user` and `app.database` are not part of this model. The current user's id is an input to each handler.
- SQLAlchemy sessions, `commit`/`refresh` and `get_db` are reduced to "a commit either succeeds and yields the new database, or fails and changes nothing".
- `uuid4` and `datetime.utcnow` are the parameters `freshId` and `now` of `CreateExercise`.
- `created_at` is a nullable column. It is modelled as always set, because its default fills it on every insert.
- No server-side check restricts difficulty and subject to the page's lists. The backend treats them as free strings.
- An explicit JSON `null` in an update body is not modelled. Updates are "supplied with a string" or absent.
- Pydantic's `EmailStr` validation, FastAPI's 422 error bodies and UUID path parsing (non-canonical spellings, malformed ids) are not modelled.
- frontend/src/pages/Login.jsx: its `handleSubmit` only delegates to `login` and shows the error. `Api.StoreAuth` covers its effect.
- `fetch` rejecting (a network failure) is not modelled. Every request receives a response.
- `EndToEnd.Answer` does not answer a failed commit. Its 500 is a plain-text body from the outermost middleware, sent without the CORS headers, so in the browser `fetch` itself rejects. `EndToEnd.FormSubmitReachesServer` is stated for the other outcomes.
- JSON serialisation is treated as lossless. This covers `JSON.stringify` of the stored user and its `JSON.parse` in `getUser`.
- `Api.Encode` does not model the percent-encoding of `URLSearchParams`, because encoding is a library detail. Parameter presence, names, values and order are modelled.
- `Api.StoreAuth` uses V8's text for the `TypeError` a 204 answer causes. Other engines word it differently.
- Callers' extra `options.headers` are not modelled, since no caller passes any.
- The browser's own form validation is not modelled. This covers `required`, `minLength={6}` and `type="email"` in the JSX, which may stop a submit before `handleSubmit` runs.
- Overlapping `loadExercises` calls and React's effect scheduling are concurrency. Each load is modelled as a start and a finish.
- JSX markup, CSS, `window.location`, `confirm` and `alert` are not modelled. `confirm` is a boolean input, and `alert` and the redirect are outputs.
- `ExercisesPage.PageTransitions` promises the pre-filled edit form only when the form was closed. An open `ExerciseForm` keeps its mounted state, because its `useState` initialisers run once. The modal overlay also keeps the cards behind it from being clicked.
- React Router's case-insensitive and trailing-slash path matching is not modelled. Paths match exactly.

=== FILE: api.dfy ===
/**
 The browser-side API client (frontend/src/api.js).

 `localStorage` becomes a `Session` value with two slots, `fetch` becomes the
 pair of a prepared request (`Sent`) and the server's answer, which is an input
 to every transition. `window.location.href = '/login'` is reported as the
 outcome's `location`.
 */
module Api {
  import opened Wrappers
  import opened Schemas

  const ApiUrl := "http://localhost:8000"
  const SessionExpiredMessage := "Sessão expirada"
  const GenericErrorMessage := "Erro na requisição"

  /** The message of the `TypeError` thrown by reading `access_token` of `null`. */
  const NullBodyMessage := "Cannot read properties of null (reading 'access_token')"

  // ---------------------------------------------------------------- session

  /** The `access_token` and `user` entries of `localStorage`. */
  datatype Session = Session(token: Option<string>, user: Option<UserResponse>)

  const SignedOut := Session(None, None)

  /** `isAuthenticated`: `!!getToken()`. */
  function IsAuthenticated(s: Session): (b: bool)
    ensures b <==> s.token.Some? && |s.token.value| > 0
  {
    Truthy(s.token)
  }

  /** `getCurrentUser`. */
  function GetCurrentUser(s: Session): (u: Option<UserResponse>)
    ensures u.Some? <==> s.user.Some?
    ensures u.Some? ==> u.value == s.user.value
  {
    s.user
  }

  /** `logout`: both entries removed. */
  function Logout(s: Session): (r: Session)
    ensures !IsAuthenticated(r)
    ensures GetCurrentUser(r) == None
  {
    SignedOut
  }

  // ---------------------------------------------------------------- requests

  datatype Method = GET | POST | PUT | DELETE

  datatype Header = Header(name: string, value: string)

  /** What a caller hands to `request`: the method (GET when absent), the
      endpoint and the JSON body. */
  datatype Call = Call(verb: Method, endpoint: string, body: Option<JsonObject>)

  /** What `fetch` is given. */
  datatype Sent = Sent(verb: Method, url: string, headers: seq<Header>, body: Option<JsonObject>)

  /** The headers of every request: JSON content type, and the bearer token
      exactly when a truthy token is stored. */
  function RequestHeaders(s: Session): (h: seq<Header>)
    ensures |h| >= 1 && h[0] == Header("Content-Type", "application/json")
    ensures IsAuthenticated(s) ==> Header("Authorization", "Bearer " + s.token.value) in h
    ensures forall i :: 0 <= i < |h| && h[i].name == "Authorization" ==>
      IsAuthenticated(s) && h[i].value == "Bearer " + s.token.value
  {
    var base := [Header("Content-Type", "application/json")];
    if IsAuthenticated(s) then base + [Header("Authorization", "Bearer " + s.token.value)] else base
  }

  /** The request `fetch` receives for a call made in session `s`. */
  function Prepare(s: Session, c: Call): (r: Sent)
    ensures r.url == ApiUrl + c.endpoint && r.verb == c.verb && r.body == c.body
    ensures Header("Content-Type", "application/json") in r.headers
    ensures IsAuthenticated(s) <==> exists i :: 0 <= i < |r.headers| && r.headers[i].name == "Authorization"
    ensures forall i :: 0 <= i < |r.headers| && r.headers[i].name == "Authorization" ==>
      r.headers[i].value == "Bearer " + s.token.value
  {
    Sent(c.verb, ApiUrl + c.endpoint, RequestHeaders(s), c.body)
  }

  // ---------------------------------------------------------------- responses

  /** The result of `response.json()`: a parse failure, or an object with its
      `detail` member (if any) and the value the caller receives. */
  datatype JsonBody<T> = Malformed(parseError: string) | Parsed(detail: Option<string>, value: T)

  datatype HttpResponse<T> = HttpResponse(status: int, body: JsonBody<T>)

  /** The four ways `request` treats a status, in the order it tests them. */
  datatype StatusClass = Unauthorized | NotOk | NoContent | OkWithBody

  /** `response.ok`. */
  predicate IsOk(status: int) {
    200 <= status <= 299
  }

  function Classify(status: int): (c: StatusClass)
    ensures c == Unauthorized <==> status == 401
    ensures c == NotOk <==> status != 401 && !IsOk(status)
    ensures c == NoContent <==> status == 204
    ensures c == OkWithBody <==> IsOk(status) && status != 204
  {
    if status == 401 then Unauthorized
    else if !IsOk(status) then NotOk
    else if status == 204 then NoContent
    else OkWithBody
  }

  /** `error.detail || 'Erro na requisição'`, or the parse failure of `response.json()`. */
  function ErrorMessage<T>(body: JsonBody<T>): (m: string)
    ensures body.Parsed? && Truthy(body.detail) ==> m == body.detail.value
    ensures body.Parsed? && !Truthy(body.detail) ==> m == GenericErrorMessage
    ensures body.Malformed? ==> m == body.parseError
  {
    match body
    case Malformed(e) => e
    case Parsed(detail, _) => if Truthy(detail) then detail.value else GenericErrorMessage
  }

  /** The effect of a request: the session after it, where the page was sent,
      and what the returned promise settles to (`None` is `null`). */
  datatype Outcome<T> = Outcome(session: Session, location: Option<string>, result: Result<Option<T>, string>)

  /** `request`, from the moment the response arrives. */
  function Request<T>(s: Session, resp: HttpResponse<T>): (o: Outcome<T>)
    ensures resp.status == 401 ==>
      o == Outcome(SignedOut, Some("/login"), Failure(SessionExpiredMessage))
    ensures resp.status != 401 ==> o.session == s && o.location == None
    ensures Classify(resp.status) == NotOk ==> o.result == Failure(ErrorMessage(resp.body))
    ensures resp.status == 204 ==> o.result == Success(None)
    ensures o.result.Success? && o.result.value.Some? <==>
      Classify(resp.status) == OkWithBody && resp.body.Parsed?
    ensures o.result.Success? && o.result.value.Some? ==> o.result.value.value == resp.body.value
    ensures resp.status != 401 && resp.status != 204 && resp.body.Malformed? ==>
      o.result == Failure(resp.body.parseError)
  {
    match Classify(resp.status)
    case Unauthorized => Outcome(SignedOut, Some("/login"), Failure(SessionExpiredMessage))
    case NotOk => Outcome(s, None, Failure(ErrorMessage(resp.body)))
    case NoContent => Outcome(s, None, Success(None))
    case OkWithBody =>
      match resp.body
      case Malformed(e) => Outcome(s, None, Failure(e))
      case Parsed(_, v) => Outcome(s, None, Success(Some(v)))
  }

  // ---------------------------------------------------------------- auth

  const LoginEndpoint := "/auth/login"
  const RegisterEndpoint := "/auth/register"

  /** The POST that `login` and `register` make with `{ email, password }`. */
  function AuthCall(endpoint: string, email: string, password: string): Call {
    Call(POST, endpoint, Some(map["email" := email, "password" := password]))
  }

  /** What `login` and `register` do with the answer: keep the token and the user
      of a successful body; otherwise reject, with the session as `request` left it. */
  function StoreAuth(s: Session, resp: HttpResponse<TokenResponse>): (o: Outcome<TokenResponse>)
    ensures o.result.Success? <==> Classify(resp.status) == OkWithBody && resp.body.Parsed?
    ensures o.result.Success? ==>
      && o.result == Success(Some(resp.body.value))
      && o.session == Session(Some(resp.body.value.accessToken), Some(resp.body.value.user))
    ensures o.result.Failure? ==> o.session == s || o.session == SignedOut
    ensures resp.status == 204 ==> o == Outcome(s, None, Failure(NullBodyMessage))
    ensures resp.status != 204 && o.result.Failure? ==> o == Request(s, resp)
    ensures o.result.Success? ==> o.location == None
  {
    var o := Request(s, resp);
    match o.result
    case Failure(_) => o
    case Success(None) => o.(result := Failure(NullBodyMessage))
    case Success(Some(data)) => o.(session := Session(Some(data.accessToken), Some(data.user)))
  }

  /** A login or registration exchange: the request sent and its outcome. */
  datatype AuthExchange = AuthExchange(sent: Sent, outcome: Outcome<TokenResponse>)

  /** `login`: POST the credentials, then keep what the server answered. */
  function Login(s: Session, email: string, password: string, resp: HttpResponse<TokenResponse>): (r: AuthExchange)
    ensures r.sent.verb == POST && r.sent.url == ApiUrl + LoginEndpoint
    ensures r.sent.body == Some(map["email" := email, "password" := password])
    ensures r.outcome.result.Success? <==> Classify(resp.status) == OkWithBody && resp.body.Parsed?
    ensures r.outcome.result.Success? ==>
      && r.outcome.result == Success(Some(resp.body.value))
      && r.outcome.session == Session(Some(resp.body.value.accessToken), Some(resp.body.value.user))
    ensures resp.status == 401 ==> r.outcome.session == SignedOut && r.outcome.location == Some("/login")
    ensures resp.status != 401 && r.outcome.result.Failure? ==> r.outcome.session == s
    ensures resp.status != 204 && r.outcome.result.Failure? ==> r.outcome == Request(s, resp)
    ensures resp.status == 204 ==> r.outcome.result == Failure(NullBodyMessage)
    ensures r.outcome.result.Success? ==> r.outcome.location == None
    ensures resp.status != 401 ==> r.outcome.location == None
  {
    AuthExchange(Prepare(s, AuthCall(LoginEndpoint, email, password)), StoreAuth(s, resp))
  }

  /** `register`: POST the credentials, then keep what the server answered. */
  function Register(s: Session, email: string, password: string, resp: HttpResponse<TokenResponse>): (r: AuthExchange)
    ensures r.sent.verb == POST && r.sent.url == ApiUrl + RegisterEndpoint
    ensures r.sent.body == Some(map["email" := email, "password" := password])
    ensures r.outcome.result.Success? <==> Classify(resp.status) == OkWithBody && resp.body.Parsed?
    ensures r.outcome.result.Success? ==>
      && r.outcome.result == Success(Some(resp.body.value))
      && r.outcome.session == Session(Some(resp.body.value.accessToken), Some(resp.body.value.user))
    ensures resp.status == 401 ==> r.outcome.session == SignedOut && r.outcome.location == Some("/login")
    ensures resp.status != 401 && r.outcome.result.Failure? ==> r.outcome.session == s
    ensures resp.status != 204 && r.outcome.result.Failure? ==> r.outcome == Request(s, resp)
    ensures resp.status == 204 ==> r.outcome.result == Failure(NullBodyMessage)
    ensures r.outcome.result.Success? ==> r.outcome.location == None
    ensures resp.status != 401 ==> r.outcome.location == None
  {
    AuthExchange(Prepare(s, AuthCall(RegisterEndpoint, email, password)), StoreAuth(s, resp))
  }

  /** After a successful login or registration the user is signed in (when the
      server's token is non-empty) and is the one the server returned; a later
      logout signs out again. */
  lemma AuthThenLogout(s: Session, email: string, password: string, resp: HttpResponse<TokenResponse>)
    requires Login(s, email, password, resp).outcome.result.Success?
    ensures var after := Login(s, email, password, resp).outcome.session;
      && (resp.body.value.accessToken != "" ==> IsAuthenticated(after))
      && GetCurrentUser(after) == Some(resp.body.value.user)
      && !IsAuthenticated(Logout(after)) && GetCurrentUser(Logout(after)) == None
    ensures Register(s, email, password, resp).outcome == Login(s, email, password, resp).outcome
  {
  }

  /** The credentials travel as the JSON body of a POST to the matching endpoint,
      bearing the current token if there is one. */
  lemma AuthRequestShape(s: Session, email: string, password: string, resp: HttpResponse<TokenResponse>)
    ensures var sent := Login(s, email, password, resp).sent;
      && sent.verb == POST && sent.url == ApiUrl + "/auth/login"
      && sent.body == Some(map["email" := email, "password" := password])
    ensures Register(s, email, password, resp).sent.url == ApiUrl + "/auth/register"
  {
  }

  // ---------------------------------------------------------------- exercises

  /** The filter object given to `getExercises`; an absent key is `None`. */
  datatype Filters = Filters(difficulty: Option<string>, subject: Option<string>)

  /** A query-string parameter. */
  datatype Param = Param(name: string, value: string)

  /** The parameters `getExercises` appends, in order. */
  function QueryParams(f: Filters): (p: seq<Param>)
    ensures forall i :: 0 <= i < |p| ==>
      || (p[i] == Param("difficulty", f.difficulty.GetOr("")) && Truthy(f.difficulty))
      || (p[i] == Param("subject", f.subject.GetOr("")) && Truthy(f.subject))
    ensures Truthy(f.difficulty) ==> Param("difficulty", f.difficulty.value) in p
    ensures Truthy(f.subject) ==> Param("subject", f.subject.value) in p
    ensures |p| <= 2
    ensures |p| == 2 ==> p[0].name == "difficulty" && p[1].name == "subject"
  {
    (if Truthy(f.difficulty) then [Param("difficulty", f.difficulty.value)] else [])
    + (if Truthy(f.subject) then [Param("subject", f.subject.value)] else [])
  }

  /** `params.toString()`, with percent-encoding left out: `name=value` joined by `&`. */
  function Encode(p: seq<Param>): (q: string)
    ensures q == "" <==> p == []
  {
    if |p| == 0 then ""
    else
      var head := p[0].name + "=" + p[0].value;
      if |p| == 1 then head else head + "&" + Encode(p[1..])
  }

  /** The endpoint `getExercises` requests. */
  function ExercisesEndpoint(f: Filters): (e: string)
    ensures !Truthy(f.difficulty) && !Truthy(f.subject) ==> e == "/exercises"
    ensures Truthy(f.difficulty) || Truthy(f.subject) ==>
      e == "/exercises?" + Encode(QueryParams(f)) && e != "/exercises"
  {
    var query := Encode(QueryParams(f));
    "/exercises" + (if query != "" then "?" + query else "")
  }

  /** `getExercises`: a GET without body of the filtered collection. */
  function GetExercisesCall(f: Filters): (c: Call)
    ensures c.verb == GET && c.body == None
    ensures c.endpoint == ExercisesEndpoint(f)
  {
    Call(GET, ExercisesEndpoint(f), None)
  }

  /** `getExercise`: a GET of one exercise by id. */
  function GetExerciseCall(id: string): (c: Call)
    ensures c.verb == GET && c.body == None
    ensures c.endpoint == "/exercises/" + id
  {
    Call(GET, "/exercises/" + id, None)
  }

  /** `createExercise`: a POST of the whole record to the collection. */
  function CreateExerciseCall(data: ExerciseCreate): (c: Call)
    ensures c.verb == POST && c.endpoint == "/exercises"
    ensures c.body.Some? && ParseCreate(c.body.value) == Some(data)
  {
    Call(POST, "/exercises", Some(CreateJson(data)))
  }

  /** `updateExercise`: a PUT of the whole record to that exercise; every
      field is supplied, so the server overwrites all five. */
  function UpdateExerciseCall(id: string, data: ExerciseCreate): (c: Call)
    ensures c.verb == PUT && c.endpoint == "/exercises/" + id
    ensures c.body.Some? && forall f :: f in ExerciseFields ==> UpdateField(ParseUpdate(c.body.value), f) == Some(Field(data, f))
  {
    Call(PUT, "/exercises/" + id, Some(CreateJson(data)))
  }

  /** `deleteExercise`: a DELETE without body of that exercise. */
  function DeleteExerciseCall(id: string): (c: Call)
    ensures c.verb == DELETE && c.body == None
    ensures c.endpoint == "/exercises/" + id
  {
    Call(DELETE, "/exercises/" + id, None)
  }
}

=== FILE: app.dfy ===
/**
 The application shell (frontend/src/App.jsx): the route table with its
 protected route, and the header.

 Rendering is reduced to which page a path shows or where it redirects; the
 authentication flag is `Api.IsAuthenticated` of the session at render time.
 */
module App {
  import opened Wrappers
  import Api

  datatype Page = LoginScreen | RegisterScreen | ExercisesScreen

  /** What a route renders: a page, or a `<Navigate replace>` to another path. */
  datatype Element = Render(page: Page) | Redirect(to: string)

  /** `ProtectedRoute`: its child when authenticated, else a redirect to `/login`. */
  function Protected(page: Page, authenticated: bool): (r: Element)
    ensures authenticated <==> r == Render(page)
    ensures !authenticated <==> r == Redirect("/login")
  {
    if !authenticated then Redirect("/login") else Render(page)
  }

  /** The `<Routes>` table of `App`: each path has one best-ranked route, the
      catch-all `*` only when no other matches. A page it
      renders is the landing page of the path, the exercise list only for a
      signed-in visitor, and a redirect goes to one of two known paths. */
  function Route(path: string, authenticated: bool): (r: Element)
    ensures r.Render? ==> r.page == Landing(path, authenticated)
    ensures r == Render(ExercisesScreen) ==> authenticated
    ensures r.Redirect? ==> r.to == "/login" || r.to == "/exercises"
    ensures r.Redirect? && r.to == "/login" ==> path == "/exercises" && !authenticated
  {
    if path == "/login" then Render(LoginScreen)
    else if path == "/register" then Render(RegisterScreen)
    else if path == "/exercises" then Protected(ExercisesScreen, authenticated)
    else Redirect("/exercises")
  }

  /** Where a path ends up after following at most `hops` redirects. */
  function Resolve(path: string, authenticated: bool, hops: nat): Option<Page>
    decreases hops
  {
    match Route(path, authenticated)
    case Render(p) => Some(p)
    case Redirect(to) => if hops == 0 then None else Resolve(to, authenticated, hops - 1)
  }

  /** The page a visitor lands on: the login and registration pages always show;
      anything else is the exercise list when signed in and the login page when
      not. */
  function Landing(path: string, authenticated: bool): Page {
    if path == "/login" then LoginScreen
    else if path == "/register" then RegisterScreen
    else if authenticated then ExercisesScreen
    else LoginScreen
  }

  /** The route table's single steps, as the application promises them. */
  lemma RouteTable(path: string, authenticated: bool)
    ensures Route("/login", authenticated) == Render(LoginScreen)
    ensures Route("/register", authenticated) == Render(RegisterScreen)
    ensures Route("/exercises", false) == Redirect("/login")
    ensures Route("/exercises", true) == Render(ExercisesScreen)
    ensures path !in {"/login", "/register", "/exercises"} ==> Route(path, authenticated) == Redirect("/exercises")
  {
  }

  /** Every path settles within two redirects, on its landing page; one hop is
      not always enough (an unknown path while signed out). */
  lemma RoutingSettles(path: string, authenticated: bool)
    ensures Resolve(path, authenticated, 2) == Some(Landing(path, authenticated))
    ensures Resolve("/", false, 1) == None
  {
  }

  /** What `Header` shows: nothing when signed out, otherwise the stored user's
      email (absent when no user is stored). */
  datatype HeaderView = HeaderView(email: Option<string>)

  function Header(s: Api.Session): (r: Option<HeaderView>)
    ensures r.Some? <==> Api.IsAuthenticated(s)
    ensures r.Some? && s.user.Some? ==> r.value.email == Some(s.user.value.email)
  {
    if !Api.IsAuthenticated(s) then None
    else Some(HeaderView(if s.user.Some? then Some(s.user.value.email) else None))
  }

  /** The header's `handleLogout`: the session after `logout` and the path
      navigated to. */
  function HeaderLogout(s: Api.Session): (r: (Api.Session, string))
    ensures !Api.IsAuthenticated(r.0) && Api.GetCurrentUser(r.0) == None
    ensures r.1 == "/login"
  {
    (Api.Logout(s), "/login")
  }

  /** After the header's logout the login page shows, without a header, and
      the exercise list is out of reach. */
  lemma LogoutLandsOnLogin(s: Api.Session)
    ensures var (after, to) := HeaderLogout(s);
      && Resolve(to, Api.IsAuthenticated(after), 2) == Some(LoginScreen)
      && Header(after) == None
      && Resolve("/exercises", Api.IsAuthenticated(after), 2) == Some(LoginScreen)
  {
  }
}

=== FILE: end_to_end.dfy ===
/**
 Properties that span the browser and the server: what the pages send is what
 the router reads, and what the API client stores decides where the router of
 the application sends the user.
 */
module EndToEnd {
  import opened Wrappers
  import opened Models
  import opened Schemas
  import Api
  import ExercisesRouter
  import RegisterPage
  import ExercisesPage
  import App

  /** How FastAPI reads a scalar query parameter: the value of the last
      parameter of that name, `None` when there is none. */
  function QueryValue(q: seq<Api.Param>, name: string): (v: Option<string>)
    ensures v.Some? <==> exists i :: 0 <= i < |q| && q[i].name == name
    ensures v.Some? ==> Api.Param(name, v.value) in q
    ensures v.Some? ==>
      exists i :: 0 <= i < |q| && q[i] == Api.Param(name, v.value) && (forall k :: i < k < |q| ==> q[k].name != name)
  {
    if |q| == 0 then None
    else if q[|q| - 1].name == name then Some(q[|q| - 1].value)
    else QueryValue(q[..|q| - 1], name)
  }

  /** The filters chosen on the page are the filters the server applies: an
      empty selection does not restrict, a chosen one keeps exactly the rows
      equal to it, and two choices combine as a conjunction. */
  lemma FiltersReachServer(difficulty: string, subject: string, e: Exercise)
    ensures var q := Api.QueryParams(ExercisesPage.FilterObject(difficulty, subject));
      ExercisesRouter.Matches(e, QueryValue(q, "difficulty"), QueryValue(q, "subject"))
      <==> (difficulty != "" ==> e.difficulty == difficulty) && (subject != "" ==> e.subject == subject)
  {
  }

  /** The stored row holds the form's fields, except that a value longer than
      its `varchar` column keeps exactly the column's width of characters. */
  predicate HoldsFields(e: Exercise, fields: ExerciseCreate) {
    && StoredAs(fields.title, TitleMaxLength, e.title)
    && e.statement == fields.statement
    && e.answer == fields.answer
    && StoredAs(fields.difficulty, DifficultyMaxLength, e.difficulty)
    && StoredAs(fields.subject, SubjectMaxLength, e.subject)
  }

  /** The form's POST body is a valid `ExerciseCreate` carrying exactly the
      form's fields, so the created row holds them, verbatim when they fit the
      columns. */
  lemma FormCreateIsStored(db: Db, user: Uuid, fields: ExerciseCreate, freshId: Uuid, now: Timestamp)
    ensures var body := ExercisesPage.SubmitCall(fields, None).body.value;
      var r := ExercisesRouter.CreateExercise(db, user, ParseCreate(body).value, freshId, now);
      && ParseCreate(body) == Some(fields)
      && (r.Success? ==> HoldsFields(r.value.db.exercises[freshId], fields))
      && (r.Success? && ContentFits(fields) ==>
            Content(r.value.db.exercises[freshId]) == fields)
  {
  }

  /** The form's PUT body supplies all five fields, so an accepted update makes
      the row's content the form's, whatever it was before: verbatim when the
      fields fit the columns. */
  lemma FormUpdateOverwritesAll(db: Db, user: Uuid, edited: ExerciseResponse, fields: ExerciseCreate)
    ensures var body := ExercisesPage.SubmitCall(fields, Some(edited)).body.value;
      var r := ExercisesRouter.UpdateExercise(db, user, edited.id, ParseUpdate(body));
      && (r.Success? ==> HoldsFields(r.value.db.exercises[edited.id], fields))
      && (r.Success? && ContentFits(fields) ==>
            Content(r.value.db.exercises[edited.id]) == fields)
  {
  }

  /** The answer FastAPI sends for a handler's result: `okStatus` with the
      value, or, for a raised `HTTPException`, its status with
      `{"detail": ...}`. `filler` stands for the value part of an error body,
      which the client never reads. A failed commit is not an
      `HTTPException`: its 500 is plain text from the outermost middleware,
      without CORS headers, so it is not answered here. */
  function Answer<T>(r: Result<T, ExercisesRouter.HttpError>, okStatus: int, filler: T): (resp: Api.HttpResponse<T>)
    requires r.Failure? ==> r.error.status != 500
    ensures r.Success? ==> resp.status == okStatus && resp.body == Api.Parsed(None, r.value)
    ensures r.Failure? ==> resp.status == r.error.status && resp.body.Parsed? && resp.body.detail == Some(r.error.detail)
  {
    match r
    case Success(v) => Api.HttpResponse(okStatus, Api.Parsed(None, v))
    case Failure(e) => Api.HttpResponse(e.status, Api.Parsed(Some(e.detail), filler))
  }

  /** `getExercise(id)` asks the server for that id and resolves to the row
      stored under it, or rejects with the 404 message. */
  lemma ClientReadsStoredRow(db: Db, user: Uuid, s: Api.Session, id: Uuid, filler: ExerciseResponse)
    ensures Api.GetExerciseCall(id).endpoint == "/exercises/" + id
    ensures var o := Api.Request(s, Answer(ExercisesRouter.GetExercise(db, user, id), 200, filler));
      && (id in db.exercises ==> o.result == Success(Some(ExerciseToResponse(id, db.exercises[id]))))
      && (id !in db.exercises ==> o.result == Failure("Exercício não encontrado"))
      && o.session == s
  {
  }

  /** How a caller that discards the awaited value sees a request: the card's
      `deleteExercise` and the form's save. */
  function SettleVoid<T>(o: Api.Outcome<T>): (r: Result<(), string>)
    ensures r.Success? <==> o.result.Success?
    ensures r.Failure? ==> r.error == o.result.error
  {
    match o.result
    case Success(_) => Success(())
    case Failure(message) => Failure(message)
  }

  /** Submitting the edit form, answered by the server's `update_exercise`:
      unless the commit fails, the form saves exactly when the caller owns an
      existing row, which then holds the form's fields; otherwise the form
      shows the server's 404 or 403 message. */
  lemma FormSubmitReachesServer(db: Db, user: Uuid, s: Api.Session, st: ExercisesPage.FormState,
                                edited: ExerciseResponse)
    ensures var body := ExercisesPage.SubmitCall(st.fields, Some(edited)).body.value;
      var r := ExercisesRouter.UpdateExercise(db, user, edited.id, ParseUpdate(body));
      r != Failure(ExercisesRouter.DatabaseError) ==>
        var resp := Answer(if r.Success? then Success(()) else Failure(r.error), 200, ());
        var sub := ExercisesPage.HandleFormSubmit(st, Some(edited), SettleVoid(Api.Request(s, resp)));
        && (sub.saved <==> edited.id in db.exercises && db.exercises[edited.id].createdBy == user)
        && (sub.saved ==> HoldsFields(r.value.db.exercises[edited.id], st.fields))
        && (edited.id !in db.exercises ==> sub.form.error == "Exercício não encontrado")
        && (edited.id in db.exercises && db.exercises[edited.id].createdBy != user ==>
              sub.form.error == "Você não tem permissão para editar este exercício")
  {
  }

  /** A confirmed delete from a card, answered by the server's
      `delete_exercise`: the list reloads exactly when the owner deletes an
      existing row, which is then gone; otherwise the server's refusal is
      alerted. */
  lemma CardDeleteReachesServer(db: Db, user: Uuid, s: Api.Session, c: ExercisesPage.Card,
                                exercise: ExerciseResponse)
    ensures var r := ExercisesRouter.DeleteExercise(db, user, exercise.id);
      var resp := Answer(if r.Success? then Success(()) else Failure(r.error), 204, ());
      var run := ExercisesPage.HandleDelete(c, exercise, true, SettleVoid(Api.Request(s, resp)));
      && run.call.value.verb == Api.DELETE && run.call.value.endpoint == "/exercises/" + exercise.id
      && (run.reloaded <==> exercise.id in db.exercises && db.exercises[exercise.id].createdBy == user)
      && (run.reloaded ==> r.Success? && exercise.id !in r.value.exercises)
      && (exercise.id !in db.exercises ==> run.alerted == Some("Exercício não encontrado"))
      && (exercise.id in db.exercises && db.exercises[exercise.id].createdBy != user ==>
            run.alerted == Some("Você não tem permissão para deletar este exercício"))
  {
  }

  /** An expired session, on any request, ends on the login page with no
      header. */
  lemma ExpiredSessionLandsOnLogin<T>(s: Api.Session, resp: Api.HttpResponse<T>)
    requires resp.status == 401
    ensures var o := Api.Request(s, resp);
      && o.location == Some("/login")
      && App.Resolve(o.location.value, Api.IsAuthenticated(o.session), 2) == Some(App.LoginScreen)
      && App.Header(o.session) == None
  {
  }

  /** What the registration page sees of `register`: its value, or the message
      of its error. */
  function SettleRegistration(o: Api.Outcome<TokenResponse>): Result<TokenResponse, string> {
    match o.result
    case Success(Some(data)) => Success(data)
    case Success(None) => Failure(Api.NullBodyMessage)
    case Failure(message) => Failure(message)
  }

  /** A submit of the registration page in session `s`, `resp` being the
      server's answer if the request is made: the page's outcome and the
      session afterwards. */
  function SubmitRegistration(f: RegisterPage.Form, s: Api.Session, resp: Api.HttpResponse<TokenResponse>)
    : (r: (RegisterPage.Submission, Api.Session))
    ensures r.0.registered.None? ==> r.1 == s
    ensures r.0.navigatedTo.Some? ==>
      && resp.body.Parsed?
      && r.1 == Api.Session(Some(resp.body.value.accessToken), Some(resp.body.value.user))
  {
    var exchange := Api.Register(s, f.email, f.password, resp);
    var submission := RegisterPage.HandleSubmit(f, SettleRegistration(exchange.outcome));
    (submission, if submission.registered.Some? then exchange.outcome.session else s)
  }

  /** A registration that navigates lands on the exercise list, signed in as
      the new user, with the header shown. */
  lemma RegistrationSignsIn(f: RegisterPage.Form, s: Api.Session, resp: Api.HttpResponse<TokenResponse>)
    requires SubmitRegistration(f, s, resp).0.navigatedTo.Some?
    requires resp.body.Parsed? && resp.body.value.accessToken != ""
    ensures var (submission, after) := SubmitRegistration(f, s, resp);
      && App.Resolve(submission.navigatedTo.value, Api.IsAuthenticated(after), 2) == Some(App.ExercisesScreen)
      && Api.GetCurrentUser(after) == Some(resp.body.value.user)
      && App.Header(after).Some?
  {
  }
}

=== FILE: exercises_page.dfy ===
/**
 The exercises page (frontend/src/pages/Exercises.jsx): the list with its two
 filters, the create/edit form and the exercise cards.

 Every asynchronous call becomes the `Api.Call` the handler makes plus its
 settled value as an input; `confirm` is a boolean input and `alert` an
 output.
 */
module ExercisesPage {
  import opened Wrappers
  import opened Schemas
  import Api

  const Difficulties: seq<string> := ["fácil", "médio", "difícil"]
  const Subjects: seq<string> :=
    ["álgebra", "geometria", "aritmética", "trigonometria", "cálculo", "estatística"]

  const DefaultDifficulty := "fácil"
  const DefaultSubject := "álgebra"

  /** The form's defaults are options of its two selects. */
  lemma DefaultsAreOptions()
    ensures DefaultDifficulty in Difficulties && DefaultSubject in Subjects
    ensures DefaultDifficulty == Difficulties[0] && DefaultSubject == Subjects[0]
  {
  }

  // ---------------------------------------------------------------- the form

  /** `value || fallback` for a string. */
  function OrElse(value: string, fallback: string): string {
    if value != "" then value else fallback
  }

  /** The initial values of `ExerciseForm`'s fields, for a new exercise (`None`)
      or for the one being edited. */
  function InitialFields(exercise: Option<ExerciseResponse>): (c: ExerciseCreate)
    ensures exercise.None? ==> c == ExerciseCreate("", "", "", DefaultDifficulty, DefaultSubject)
    ensures exercise.Some? ==>
      && c.title == exercise.value.title
      && c.statement == exercise.value.statement
      && c.answer == exercise.value.answer
    ensures exercise.Some? && exercise.value.difficulty != "" ==> c.difficulty == exercise.value.difficulty
    ensures exercise.Some? && exercise.value.subject != "" ==> c.subject == exercise.value.subject
    ensures c.difficulty != "" && c.subject != ""
  {
    match exercise
    case None => ExerciseCreate("", "", "", DefaultDifficulty, DefaultSubject)
    case Some(e) =>
      ExerciseCreate(OrElse(e.title, ""), OrElse(e.statement, ""), OrElse(e.answer, ""),
                     OrElse(e.difficulty, DefaultDifficulty), OrElse(e.subject, DefaultSubject))
  }

  /** Opening the edit form of an exercise whose difficulty and subject are set
      shows exactly its content; an empty difficulty or subject is replaced by
      the default. */
  lemma EditFormShowsExercise(e: ExerciseResponse)
    ensures e.difficulty != "" && e.subject != "" ==> InitialFields(Some(e)) == Content(ResponseRow(e))
    ensures e.difficulty == "" ==> InitialFields(Some(e)).difficulty == DefaultDifficulty
    ensures e.subject == "" ==> InitialFields(Some(e)).subject == DefaultSubject
  {
  }

  /** The call the form's submit makes: always all five fields, an update of
      the edited exercise or else a create. */
  function SubmitCall(fields: ExerciseCreate, exercise: Option<ExerciseResponse>): (c: Api.Call)
    ensures c.body == Some(CreateJson(fields))
    ensures exercise.Some? ==> c.verb == Api.PUT && c.endpoint == "/exercises/" + exercise.value.id
    ensures exercise.None? ==> c.verb == Api.POST && c.endpoint == "/exercises"
  {
    match exercise
    case Some(e) => Api.UpdateExerciseCall(e.id, fields)
    case None => Api.CreateExerciseCall(fields)
  }

  /** The state of an open `ExerciseForm`. */
  datatype FormState = FormState(fields: ExerciseCreate, loading: bool, error: string)

  /** One run of the form's `handleSubmit`: the form afterwards, the call it
      made, and whether `onSave` ran. */
  datatype FormSubmission = FormSubmission(form: FormState, call: Api.Call, saved: bool)

  /** The form's `handleSubmit`; `attempt` is how the awaited call settles
      (its value is discarded). */
  function HandleFormSubmit(st: FormState, exercise: Option<ExerciseResponse>,
                            attempt: Result<(), string>): (r: FormSubmission)
    ensures r.call == SubmitCall(st.fields, exercise)
    ensures r.saved <==> attempt.Success?
    ensures attempt.Success? ==> r.form.error == ""
    ensures attempt.Failure? ==> r.form.error == attempt.error
    ensures !r.form.loading && r.form.fields == st.fields
  {
    var call := SubmitCall(st.fields, exercise);
    var busy := st.(error := "", loading := true);
    match attempt
    case Success(_) => FormSubmission(busy.(loading := false), call, true)
    case Failure(message) => FormSubmission(busy.(error := message, loading := false), call, false)
  }

  // ---------------------------------------------------------------- the page

  /** The `Exercises` component's state hooks. */
  datatype PageState = PageState(
    exercises: seq<ExerciseResponse>,
    loading: bool,
    error: string,
    showForm: bool,
    editing: Option<ExerciseResponse>,
    filterDifficulty: string,
    filterSubject: string)

  const InitialPage := PageState([], true, "", false, None, "", "")

  /** A closed form has nothing being edited. */
  predicate FormInv(p: PageState) {
    !p.showForm ==> p.editing.None?
  }

  /** The filter object of `loadExercises`: a key only for a non-empty selection. */
  function FilterObject(difficulty: string, subject: string): (f: Api.Filters)
    ensures f.difficulty.Some? <==> difficulty != ""
    ensures f.subject.Some? <==> subject != ""
    ensures f.difficulty.Some? ==> f.difficulty.value == difficulty
    ensures f.subject.Some? ==> f.subject.value == subject
  {
    Api.Filters(if difficulty != "" then Some(difficulty) else None,
                if subject != "" then Some(subject) else None)
  }

  /** The request `loadExercises` makes for the page's selections: the bare
      collection when neither filter is chosen, otherwise one parameter per
      chosen filter, difficulty first. */
  lemma LoadRequestFollowsSelection(p: PageState)
    ensures var e := Api.GetExercisesCall(FilterObject(p.filterDifficulty, p.filterSubject)).endpoint;
      e == "/exercises" <==> p.filterDifficulty == "" && p.filterSubject == ""
    ensures var q := Api.QueryParams(FilterObject(p.filterDifficulty, p.filterSubject));
      && (p.filterDifficulty != "" ==> Api.Param("difficulty", p.filterDifficulty) in q)
      && (p.filterSubject != "" ==> Api.Param("subject", p.filterSubject) in q)
      && |q| == (if p.filterDifficulty != "" then 1 else 0) + (if p.filterSubject != "" then 1 else 0)
  {
  }

  /** The start of `loadExercises`: loading, error cleared, request made. */
  function StartLoad(p: PageState): (r: (PageState, Api.Call))
    ensures r.0.loading && r.0.error == ""
    ensures r.0.exercises == p.exercises && r.0.showForm == p.showForm && r.0.editing == p.editing
    ensures r.0.filterDifficulty == p.filterDifficulty && r.0.filterSubject == p.filterSubject
    ensures r.1 == Api.Call(Api.GET, Api.ExercisesEndpoint(FilterObject(p.filterDifficulty, p.filterSubject)), None)
  {
    (p.(loading := true, error := ""),
     Api.GetExercisesCall(FilterObject(p.filterDifficulty, p.filterSubject)))
  }

  /** The end of `loadExercises`: the list replaced, or the error shown and the
      old list kept. */
  function FinishLoad(p: PageState, result: Result<seq<ExerciseResponse>, string>): (r: PageState)
    ensures !r.loading
    ensures result.Success? ==> r.exercises == result.value && r.error == p.error
    ensures result.Failure? ==> r.exercises == p.exercises && r.error == result.error
    ensures r.showForm == p.showForm && r.editing == p.editing
    ensures r.filterDifficulty == p.filterDifficulty && r.filterSubject == p.filterSubject
  {
    match result
    case Success(data) => p.(exercises := data, loading := false)
    case Failure(message) => p.(error := message, loading := false)
  }

  /** A new selection of the difficulty filter reloads the list with the new
      difficulty and the subject already chosen; the form is untouched. */
  function SelectDifficulty(p: PageState, d: string): (r: (PageState, Api.Call))
    ensures r.0.filterDifficulty == d && r.0.filterSubject == p.filterSubject
    ensures r.0.loading && r.0.error == "" && r.0.exercises == p.exercises
    ensures r.0.showForm == p.showForm && r.0.editing == p.editing
    ensures r.1 == Api.GetExercisesCall(FilterObject(d, p.filterSubject))
  {
    StartLoad(p.(filterDifficulty := d))
  }

  /** The same for the subject filter. */
  function SelectSubject(p: PageState, s: string): (r: (PageState, Api.Call))
    ensures r.0.filterSubject == s && r.0.filterDifficulty == p.filterDifficulty
    ensures r.0.loading && r.0.error == "" && r.0.exercises == p.exercises
    ensures r.0.showForm == p.showForm && r.0.editing == p.editing
    ensures r.1 == Api.GetExercisesCall(FilterObject(p.filterDifficulty, s))
  {
    StartLoad(p.(filterSubject := s))
  }

  /** The "+ Novo Exercício" button: the form shows, nothing else changes; from
      a closed form it is the empty form of a new exercise. */
  function OpenNewForm(p: PageState): (r: PageState)
    ensures r.showForm && r.editing == p.editing && r.exercises == p.exercises
    ensures r.loading == p.loading && r.error == p.error
    ensures r.filterDifficulty == p.filterDifficulty && r.filterSubject == p.filterSubject
    ensures FormInv(p) && !p.showForm ==> r.editing.None?
  {
    p.(showForm := true)
  }

  /** `handleEdit`: the form shows with `e` as the exercise being edited, so
      its submit is a PUT of `e`. */
  function HandleEdit(p: PageState, e: ExerciseResponse): (r: PageState)
    ensures r.showForm && r.editing == Some(e)
    ensures r.exercises == p.exercises && r.loading == p.loading && r.error == p.error
    ensures r.filterDifficulty == p.filterDifficulty && r.filterSubject == p.filterSubject
    ensures forall fields :: SubmitCall(fields, r.editing) == Api.UpdateExerciseCall(e.id, fields)
  {
    p.(editing := Some(e), showForm := true)
  }

  /** `handleFormClose`, also the form's Cancel: the form hides and forgets
      the edited exercise, whatever the state before. */
  function HandleFormClose(p: PageState): (r: PageState)
    ensures !r.showForm && r.editing.None? && FormInv(r)
    ensures r.exercises == p.exercises && r.loading == p.loading && r.error == p.error
    ensures r.filterDifficulty == p.filterDifficulty && r.filterSubject == p.filterSubject
  {
    p.(showForm := false, editing := None)
  }

  /** `handleFormSave`: close the form, then reload with the current filters. */
  function HandleFormSave(p: PageState): (r: (PageState, Api.Call))
    ensures !r.0.showForm && r.0.editing.None? && FormInv(r.0)
    ensures r.0.loading && r.0.error == "" && r.0.exercises == p.exercises
    ensures r.0.filterDifficulty == p.filterDifficulty && r.0.filterSubject == p.filterSubject
    ensures r.1 == Api.GetExercisesCall(FilterObject(p.filterDifficulty, p.filterSubject))
  {
    StartLoad(HandleFormClose(p))
  }

  /** The form on screen: its initial fields, or `None` when hidden. */
  function VisibleForm(p: PageState): Option<ExerciseCreate> {
    if p.showForm then Some(InitialFields(p.editing)) else None
  }

  /** The page starts loading, with no filter and no form. Every transition
      keeps a closed form free of an edited exercise; editing from a closed
      form opens a form pre-filled with the exercise (an open form keeps the
      fields it holds), whose submit updates it; closing or saving hides the
      form. */
  lemma PageTransitions(p: PageState, e: ExerciseResponse, d: string, s: string,
                        result: Result<seq<ExerciseResponse>, string>)
    requires FormInv(p)
    ensures FormInv(InitialPage) && VisibleForm(InitialPage) == None && InitialPage.loading
    ensures FormInv(OpenNewForm(p)) && FormInv(HandleEdit(p, e)) && FormInv(HandleFormClose(p))
    ensures FormInv(HandleFormSave(p).0) && FormInv(FinishLoad(p, result))
    ensures FormInv(SelectDifficulty(p, d).0) && FormInv(SelectSubject(p, s).0)
    ensures !p.showForm ==> VisibleForm(HandleEdit(p, e)) == Some(InitialFields(Some(e)))
    ensures SubmitCall(InitialFields(Some(e)), HandleEdit(p, e).editing).endpoint == "/exercises/" + e.id
    ensures VisibleForm(HandleFormClose(p)) == None && HandleFormClose(p).editing == None
    ensures VisibleForm(HandleFormSave(p).0) == None && HandleFormSave(p).0.loading
  {
  }

  /** From a closed form, "+ Novo Exercício" opens an empty form whose submit
      creates. */
  lemma NewFormCreates(p: PageState, fields: ExerciseCreate)
    requires FormInv(p) && !p.showForm
    ensures VisibleForm(OpenNewForm(p)) == Some(ExerciseCreate("", "", "", DefaultDifficulty, DefaultSubject))
    ensures SubmitCall(fields, OpenNewForm(p).editing).verb == Api.POST
  {
  }

  // ---------------------------------------------------------------- the card

  /** An `ExerciseCard`'s state hooks. */
  datatype Card = Card(showAnswer: bool, deleting: bool)

  const InitialCard := Card(false, false)

  /** The answer button. */
  function ToggleAnswer(c: Card): (r: Card)
    ensures r.showAnswer != c.showAnswer && r.deleting == c.deleting
  {
    c.(showAnswer := !c.showAnswer)
  }

  /** Two toggles restore the card; a fresh card hides the answer until toggled. */
  lemma ToggleTwiceRestores(c: Card)
    ensures ToggleAnswer(ToggleAnswer(c)) == c
    ensures !InitialCard.showAnswer && ToggleAnswer(InitialCard).showAnswer
  {
  }

  /** One run of `handleDelete`: the card afterwards, the call made (if any),
      whether `onDelete` reloaded the list, and the alert shown (if any). */
  datatype DeleteRun = DeleteRun(card: Card, call: Option<Api.Call>, reloaded: bool, alerted: Option<string>)

  /** `handleDelete`; `confirmed` is the answer to `confirm` and `attempt` how
      the delete settles. */
  function HandleDelete(c: Card, exercise: ExerciseResponse, confirmed: bool, attempt: Result<(), string>)
    : (r: DeleteRun)
    ensures !confirmed ==> r == DeleteRun(c, None, false, None)
    ensures confirmed ==> r.call == Some(Api.DeleteExerciseCall(exercise.id)) && !r.card.deleting
    ensures confirmed ==> (r.reloaded <==> attempt.Success?)
    ensures confirmed && attempt.Failure? ==> r.alerted == Some(attempt.error)
    ensures attempt.Success? ==> r.alerted == None
    ensures r.card.showAnswer == c.showAnswer
  {
    if !confirmed then DeleteRun(c, None, false, None)
    else
      var call := Some(Api.DeleteExerciseCall(exercise.id));
      var busy := c.(deleting := true);
      match attempt
      case Success(_) => DeleteRun(busy.(deleting := false), call, true, None)
      case Failure(message) => DeleteRun(busy.(deleting := false), call, false, Some(message))
  }
}

=== FILE: exercises_router.dfy ===
/**
 The `/exercises` router (backend/app/routers/exercises.py): each handler is a
 pure transition from the database, the id of the authenticated user and the
 request to either an HTTP error or a response together with the new database.

 An error carries no database: a handler that raises leaves the store as it
 was, because nothing was committed.
 */
module ExercisesRouter {
  import opened Wrappers
  import opened Models
  import opened Schemas

  /** An `HTTPException`: a status code and its `detail` text. */
  datatype HttpError = HttpError(status: nat, detail: string)

  const NotFound := HttpError(404, "Exercício não encontrado")
  const ForbiddenEdit := HttpError(403, "Você não tem permissão para editar este exercício")
  const ForbiddenDelete := HttpError(403, "Você não tem permissão para deletar este exercício")

  /** The answer to an exception the handler does not catch: here, a commit that
      PostgreSQL rejects (a too-wide column, a dangling `created_by`, a
      duplicate primary key). */
  const DatabaseError := HttpError(500, "Internal Server Error")

  /** A successful answer and the database after the commit. */
  datatype Reply<T> = Reply(body: T, db: Db)

  // ---------------------------------------------------------------- listing

  /** The `WHERE` clause of `list_exercises`: one equality per truthy filter. */
  predicate Matches(e: Exercise, difficulty: Option<string>, subject: Option<string>) {
    && (Truthy(difficulty) ==> e.difficulty == difficulty.value)
    && (Truthy(subject) ==> e.subject == subject.value)
  }

  /** `ORDER BY created_at DESC`. */
  ghost predicate NewestFirst(r: seq<ExerciseResponse>) {
    forall i, j :: 0 <= i < j < |r| ==> r[i].createdAt >= r[j].createdAt
  }

  /** No row appears twice in a listing. */
  ghost predicate DistinctIds(r: seq<ExerciseResponse>) {
    forall i, j :: 0 <= i < j < |r| ==> r[i].id != r[j].id
  }

  /** Where `x` goes in a newest-first listing: after every row at least as new. */
  function InsertionPoint(r: seq<ExerciseResponse>, x: ExerciseResponse): (j: nat)
    ensures j <= |r|
    ensures forall i :: 0 <= i < j ==> r[i].createdAt >= x.createdAt
    ensures NewestFirst(r) ==> forall i :: j <= i < |r| ==> r[i].createdAt < x.createdAt
  {
    if |r| == 0 || r[0].createdAt < x.createdAt then 0
    else 1 + InsertionPoint(r[1..], x)
  }

  /** Inserting a row into a newest-first listing keeps it newest first, and
      keeps ids distinct when the row's id is new. */
  lemma InsertKeepsListing(r: seq<ExerciseResponse>, x: ExerciseResponse, j: nat)
    requires NewestFirst(r) && DistinctIds(r)
    requires j == InsertionPoint(r, x)
    requires forall i :: 0 <= i < |r| ==> r[i].id != x.id
    ensures NewestFirst(r[..j] + [x] + r[j..])
    ensures DistinctIds(r[..j] + [x] + r[j..])
  {
  }

  /** A filter the query can bind: an untruthy one is not sent to the
      database, and a truthy one must be free of NUL, which a PostgreSQL text
      parameter cannot hold. */
  predicate FilterBindable(q: Option<string>) {
    Truthy(q) ==> NulFree(q.value)
  }

  /** `list_exercises`: every stored row that passes both filters, each once,
      newest first, or 500 when a filter cannot be bound. The current user
      plays no part: reads are not restricted to the owner. */
  method ListExercises(db: Db, currentUser: Uuid, difficulty: Option<string>, subject: Option<string>)
    returns (r: Result<seq<ExerciseResponse>, HttpError>)
    ensures r.Failure? <==> !FilterBindable(difficulty) || !FilterBindable(subject)
    ensures r.Failure? ==> r.error == DatabaseError
    ensures r.Success? ==> forall i :: 0 <= i < |r.value| ==>
      && r.value[i].id in db.exercises
      && ResponseRow(r.value[i]) == db.exercises[r.value[i].id]
      && Matches(db.exercises[r.value[i].id], difficulty, subject)
    ensures r.Success? ==> forall id :: id in db.exercises && Matches(db.exercises[id], difficulty, subject) ==>
      ExerciseToResponse(id, db.exercises[id]) in r.value
    ensures r.Success? ==> DistinctIds(r.value) && NewestFirst(r.value)
  {
    if !FilterBindable(difficulty) || !FilterBindable(subject) {
      return Failure(DatabaseError);
    }
    var rows := MatchingRows(db, difficulty, subject);
    return Success(rows);
  }

  /** The rows of the `SELECT` in `list_exercises`. The order among rows
      created at the same instant is the database's choice, which is why this
      is a method. */
  method MatchingRows(db: Db, difficulty: Option<string>, subject: Option<string>)
    returns (r: seq<ExerciseResponse>)
    ensures forall i :: 0 <= i < |r| ==>
      && r[i].id in db.exercises
      && ResponseRow(r[i]) == db.exercises[r[i].id]
      && Matches(db.exercises[r[i].id], difficulty, subject)
    ensures forall id :: id in db.exercises && Matches(db.exercises[id], difficulty, subject) ==>
      ExerciseToResponse(id, db.exercises[id]) in r
    ensures DistinctIds(r)
    ensures NewestFirst(r)
  {
    r := [];
    var todo := db.exercises.Keys;
    while todo != {}
      invariant todo <= db.exercises.Keys
      invariant forall i :: 0 <= i < |r| ==>
        && r[i].id in db.exercises && r[i].id !in todo
        && ResponseRow(r[i]) == db.exercises[r[i].id]
        && Matches(db.exercises[r[i].id], difficulty, subject)
      invariant forall id :: id in db.exercises && id !in todo && Matches(db.exercises[id], difficulty, subject) ==>
        ExerciseToResponse(id, db.exercises[id]) in r
      invariant DistinctIds(r)
      invariant NewestFirst(r)
      decreases todo
    {
      var id :| id in todo;
      var e := db.exercises[id];
      if Matches(e, difficulty, subject) {
        var x := ExerciseToResponse(id, e);
        var j := InsertionPoint(r, x);
        InsertKeepsListing(r, x, j);
        r := r[..j] + [x] + r[j..];
      }
      todo := todo - {id};
    }
  }

  /** How the filters act: a truthy filter keeps exactly the rows equal to it,
      a missing or empty one keeps everything, and two filters are their
      conjunction. */
  lemma FilterSemantics(e: Exercise, difficulty: Option<string>, subject: Option<string>)
    ensures Matches(e, difficulty, subject) <==> Matches(e, difficulty, None) && Matches(e, None, subject)
    ensures Matches(e, None, None) && Matches(e, Some(""), Some(""))
    ensures Truthy(difficulty) ==> (Matches(e, difficulty, None) <==> e.difficulty == difficulty.value)
    ensures Truthy(subject) ==> (Matches(e, None, subject) <==> e.subject == subject.value)
  {
  }

  // ---------------------------------------------------------------- reading one

  /** `get_exercise`: the stored row, whoever owns it, or 404. */
  function GetExercise(db: Db, currentUser: Uuid, id: Uuid): (r: Result<ExerciseResponse, HttpError>)
    ensures r.Failure? <==> id !in db.exercises
    ensures r.Failure? ==> r.error == NotFound
    ensures r.Success? ==> r.value.id == id && ResponseRow(r.value) == db.exercises[id]
  {
    if id !in db.exercises then Failure(NotFound)
    else Success(ExerciseToResponse(id, db.exercises[id]))
  }

  /** Reading does not depend on who asks. */
  lemma ReadsIgnoreOwnership(db: Db, u1: Uuid, u2: Uuid, id: Uuid)
    ensures GetExercise(db, u1, id) == GetExercise(db, u2, id)
  {
  }

  // ---------------------------------------------------------------- creating

  /** The row `create_exercise` builds: the five fields from the body, the
      current user as owner, `now` as the column default for `created_at`. */
  function NewRow(data: ExerciseCreate, owner: Uuid, now: Timestamp): (e: Exercise)
    ensures Content(e) == data
    ensures e.createdBy == owner && e.createdAt == now
  {
    Exercise(data.title, data.statement, data.answer, data.difficulty, data.subject, owner, now)
  }

  /** `create_exercise`. `freshId` is the value `uuid4` produced for the primary
      key and `now` the value of `datetime.utcnow`; the commit fails if
      PostgreSQL refuses the row, and the answer is the row as `refresh` reads
      it back, which is the row as PostgreSQL stored it. */
  function CreateExercise(db: Db, currentUser: Uuid, data: ExerciseCreate, freshId: Uuid, now: Timestamp)
    : (r: Result<Reply<ExerciseResponse>, HttpError>)
    ensures r.Failure? <==>
      || freshId in db.exercises
      || currentUser !in db.users
      || !ExerciseNulFree(NewRow(data, currentUser, now))
      || VarcharAssign(data.title, TitleMaxLength).None?
      || VarcharAssign(data.difficulty, DifficultyMaxLength).None?
      || VarcharAssign(data.subject, SubjectMaxLength).None?
    ensures r.Failure? ==> r.error == DatabaseError
    ensures r.Success? ==>
      var after := r.value.db.exercises;
      && freshId !in db.exercises
      && after.Keys == db.exercises.Keys + {freshId}
      && StoredAs(data.title, TitleMaxLength, after[freshId].title)
      && after[freshId].statement == data.statement
      && after[freshId].answer == data.answer
      && StoredAs(data.difficulty, DifficultyMaxLength, after[freshId].difficulty)
      && StoredAs(data.subject, SubjectMaxLength, after[freshId].subject)
      && (ContentFits(data) ==> Content(after[freshId]) == data)
      && after[freshId].createdBy == currentUser
      && after[freshId].createdAt == now
      && (forall k :: k in db.exercises ==> after[k] == db.exercises[k])
      && r.value.db.users == db.users
      && r.value.body == ExerciseToResponse(freshId, after[freshId])
  {
    var written := WriteExercise(db.users, NewRow(data, currentUser, now));
    if freshId in db.exercises || written.None? then Failure(DatabaseError)
    else Success(Reply(ExerciseToResponse(freshId, written.value),
                       db.(exercises := db.exercises[freshId := written.value])))
  }

  // ---------------------------------------------------------------- updating

  /** `setattr` for every field in `model_dump(exclude_unset=True)`. */
  function Patch(e: Exercise, u: ExerciseUpdate): (p: Exercise)
    ensures forall f :: f in ExerciseFields ==>
      Field(Content(p), f) == (if f in UpdateJson(u) then UpdateJson(u)[f] else Field(Content(e), f))
    ensures p.createdBy == e.createdBy && p.createdAt == e.createdAt
  {
    e.(title := u.title.GetOr(e.title),
       statement := u.statement.GetOr(e.statement),
       answer := u.answer.GetOr(e.answer),
       difficulty := u.difficulty.GetOr(e.difficulty),
       subject := u.subject.GetOr(e.subject))
  }

  /** A patch changes exactly the supplied fields, field by field, and never the
      owner or the creation time. */
  lemma PatchChangesOnlySupplied(e: Exercise, u: ExerciseUpdate)
    ensures forall f :: f in ExerciseFields ==>
      Field(Content(Patch(e, u)), f) == (if UpdateField(u, f).Some? then UpdateField(u, f).value else Field(Content(e), f))
    ensures Patch(e, u).createdBy == e.createdBy && Patch(e, u).createdAt == e.createdAt
  {
  }

  /** The empty patch is the identity, and applying a patch twice is applying it once. */
  lemma PatchIdentityAndIdempotence(e: Exercise, u: ExerciseUpdate)
    ensures Patch(e, EmptyUpdate) == e
    ensures Patch(Patch(e, u), u) == Patch(e, u)
  {
  }

  /** `update_exercise`: 404 if absent, then 403 if not the owner, then the
      patch, committed if PostgreSQL accepts the patched row and answered as
      `refresh` reads it back. */
  function UpdateExercise(db: Db, currentUser: Uuid, id: Uuid, data: ExerciseUpdate)
    : (r: Result<Reply<ExerciseResponse>, HttpError>)
    ensures id !in db.exercises ==> r == Failure(NotFound)
    ensures id in db.exercises && db.exercises[id].createdBy != currentUser ==> r == Failure(ForbiddenEdit)
    ensures id in db.exercises && db.exercises[id].createdBy == currentUser && r.Failure? ==>
      r.error == DatabaseError
    ensures id in db.exercises && db.exercises[id].createdBy == currentUser ==>
      var patched := Patch(db.exercises[id], data);
      && (r.Success? <==>
            && ExerciseNulFree(patched) && currentUser in db.users
            && VarcharAssign(patched.title, TitleMaxLength).Some?
            && VarcharAssign(patched.difficulty, DifficultyMaxLength).Some?
            && VarcharAssign(patched.subject, SubjectMaxLength).Some?)
      && (ExerciseRowAccepted(db.users, patched) ==> r.Success? && id in r.value.db.exercises && r.value.db.exercises[id] == patched)
    ensures r.Failure? ==> r.error == NotFound || r.error == ForbiddenEdit || r.error == DatabaseError
    ensures r.Success? ==>
      var after := r.value.db.exercises;
      var patched := Patch(db.exercises[id], data);
      && id in db.exercises && db.exercises[id].createdBy == currentUser
      && after.Keys == db.exercises.Keys
      && StoredAs(patched.title, TitleMaxLength, after[id].title)
      && after[id].statement == patched.statement
      && after[id].answer == patched.answer
      && StoredAs(patched.difficulty, DifficultyMaxLength, after[id].difficulty)
      && StoredAs(patched.subject, SubjectMaxLength, after[id].subject)
      && after[id].createdBy == currentUser
      && after[id].createdAt == db.exercises[id].createdAt
      && (forall k :: k in db.exercises && k != id ==> after[k] == db.exercises[k])
      && r.value.db.users == db.users
      && r.value.body == ExerciseToResponse(id, after[id])
  {
    if id !in db.exercises then Failure(NotFound)
    else if db.exercises[id].createdBy != currentUser then Failure(ForbiddenEdit)
    else
      var written := WriteExercise(db.users, Patch(db.exercises[id], data));
      if written.None? then Failure(DatabaseError)
      else Success(Reply(ExerciseToResponse(id, written.value),
                         db.(exercises := db.exercises[id := written.value])))
  }

  /** An empty body sent by the owner of a valid row changes nothing. */
  lemma EmptyUpdateChangesNothing(db: Db, currentUser: Uuid, id: Uuid)
    requires Valid(db)
    requires id in db.exercises && db.exercises[id].createdBy == currentUser
    ensures UpdateExercise(db, currentUser, id, EmptyUpdate)
         == Success(Reply(ExerciseToResponse(id, db.exercises[id]), db))
  {
    PatchIdentityAndIdempotence(db.exercises[id], EmptyUpdate);
    assert db.exercises[id := db.exercises[id]] == db.exercises;
  }

  // ---------------------------------------------------------------- deleting

  /** `delete_exercise`: 404 if absent, then 403 if not the owner, then the row
      goes; the 204 answer has no body. */
  function DeleteExercise(db: Db, currentUser: Uuid, id: Uuid): (r: Result<Db, HttpError>)
    ensures id !in db.exercises ==> r == Failure(NotFound)
    ensures id in db.exercises && db.exercises[id].createdBy != currentUser ==> r == Failure(ForbiddenDelete)
    ensures id in db.exercises && db.exercises[id].createdBy == currentUser ==>
      && r.Success?
      && r.value.exercises.Keys == db.exercises.Keys - {id}
      && (forall k :: k in r.value.exercises ==> r.value.exercises[k] == db.exercises[k])
      && r.value.users == db.users
  {
    if id !in db.exercises then Failure(NotFound)
    else if db.exercises[id].createdBy != currentUser then Failure(ForbiddenDelete)
    else Success(db.(exercises := db.exercises - {id}))
  }

  // ---------------------------------------------------------------- across handlers

  /** Every handler that commits keeps the schema's constraints. */
  lemma HandlersPreserveValid(db: Db, user: Uuid, id: Uuid, data: ExerciseCreate,
                              patch: ExerciseUpdate, freshId: Uuid, now: Timestamp)
    requires Valid(db)
    ensures CreateExercise(db, user, data, freshId, now).Success? ==>
      Valid(CreateExercise(db, user, data, freshId, now).value.db)
    ensures UpdateExercise(db, user, id, patch).Success? ==>
      Valid(UpdateExercise(db, user, id, patch).value.db)
    ensures DeleteExercise(db, user, id).Success? ==>
      Valid(DeleteExercise(db, user, id).value)
  {
  }

  /** A created row can be read back by anyone, as it was returned. */
  lemma CreateThenGet(db: Db, user: Uuid, reader: Uuid, data: ExerciseCreate, freshId: Uuid, now: Timestamp)
    requires CreateExercise(db, user, data, freshId, now).Success?
    ensures var reply := CreateExercise(db, user, data, freshId, now).value;
      GetExercise(reply.db, reader, freshId) == Success(reply.body)
  {
  }

  /** An updated row reads back as the update returned it. */
  lemma UpdateThenGet(db: Db, user: Uuid, reader: Uuid, id: Uuid, patch: ExerciseUpdate)
    requires UpdateExercise(db, user, id, patch).Success?
    ensures var reply := UpdateExercise(db, user, id, patch).value;
      GetExercise(reply.db, reader, id) == Success(reply.body)
  {
  }

  /** A deleted row is gone for everyone, and a second delete answers 404. */
  lemma DeleteThenGet(db: Db, user: Uuid, reader: Uuid, id: Uuid)
    requires DeleteExercise(db, user, id).Success?
    ensures GetExercise(DeleteExercise(db, user, id).value, reader, id) == Failure(NotFound)
    ensures DeleteExercise(DeleteExercise(db, user, id).value, user, id) == Failure(NotFound)
  {
  }

  /** The 404 check comes first: for an unknown id the answer does not depend on
      the user, for update and delete alike. */
  lemma NotFoundBeforeForbidden(db: Db, u1: Uuid, u2: Uuid, id: Uuid, patch: ExerciseUpdate)
    requires id !in db.exercises
    ensures UpdateExercise(db, u1, id, patch) == UpdateExercise(db, u2, id, patch) == Failure(NotFound)
    ensures DeleteExercise(db, u1, id) == DeleteExercise(db, u2, id) == Failure(NotFound)
  {
  }
}

=== FILE: models.dfy ===
/**
 The two database tables of the exercise platform (backend/app/models.py) as an
 immutable store, together with the constraints PostgreSQL enforces on them.

 A table is a map from primary key to row, so a row carries no `id` field of its
 own: two rows can never share an id.
 */
module Models {
  import opened Wrappers

  /** A UUID, in its canonical text form (the form the frontend puts in URLs). */
  type Uuid = string

  /** A `DateTime` column value as an instant; a larger value is later. */
  type Timestamp = int

  /** Declared column widths: `String(255)`, `String(50)`, `String(100)`. */
  const EmailMaxLength := 255
  const TitleMaxLength := 255
  const DifficultyMaxLength := 50
  const SubjectMaxLength := 100

  /** A row of `users`. */
  datatype User = User(email: string, passwordHash: string, createdAt: Timestamp)

  /** A row of `exercises`: five text columns, the owner and the creation time. */
  datatype Exercise = Exercise(
    title: string,
    statement: string,
    answer: string,
    difficulty: string,
    subject: string,
    createdBy: Uuid,
    createdAt: Timestamp)

  /** The whole database: both tables, keyed by their `id` primary keys. */
  datatype Db = Db(users: map<Uuid, User>, exercises: map<Uuid, Exercise>)

  /** The `unique=True` constraint on `users.email`. */
  ghost predicate UniqueEmails(users: map<Uuid, User>) {
    forall a, b :: a in users && b in users && a != b ==> users[a].email != users[b].email
  }

  /** A user row fits the width of `users.email`. */
  predicate UserFits(u: User) {
    |u.email| <= EmailMaxLength
  }

  /** An exercise row fits the declared widths of its `String(n)` columns. */
  predicate ExerciseFits(e: Exercise) {
    && |e.title| <= TitleMaxLength
    && |e.difficulty| <= DifficultyMaxLength
    && |e.subject| <= SubjectMaxLength
  }

  /** A PostgreSQL text value cannot hold the NUL character. */
  predicate NulFree(s: string) {
    '\0' !in s
  }

  /** None of the five text columns of a row holds NUL. */
  predicate ExerciseNulFree(e: Exercise) {
    NulFree(e.title) && NulFree(e.statement) && NulFree(e.answer) && NulFree(e.difficulty) && NulFree(e.subject)
  }

  /** The rows PostgreSQL can hold in `exercises`: widths respected, no NUL,
      and the foreign key `created_by -> users.id` satisfied. */
  predicate ExerciseRowAccepted(users: map<Uuid, User>, e: Exercise) {
    ExerciseFits(e) && ExerciseNulFree(e) && e.createdBy in users
  }

  predicate AllSpaces(s: string) {
    forall i :: 0 <= i < |s| ==> s[i] == ' '
  }

  /** `stored` is what a `varchar(n)` column keeps of `input`: all of it when
      it fits, otherwise exactly its first `n` characters. */
  predicate StoredAs(input: string, n: nat, stored: string) {
    stored == if |input| <= n then input else input[..n]
  }

  /** Assignment of a string to a `varchar(n)` column: a longer value whose
      excess characters are all spaces is cut to `n`; any other longer value is
      an error (`None`). */
  function VarcharAssign(s: string, n: nat): (r: Option<string>)
    ensures r.Some? <==> |s| <= n || AllSpaces(s[n..])
    ensures r.Some? ==> |r.value| <= n && StoredAs(s, n, r.value)
    ensures r.Some? ==> r.value <= s && AllSpaces(s[|r.value|..])
    ensures |s| <= n ==> r == Some(s)
  {
    if |s| <= n then Some(s)
    else if AllSpaces(s[n..]) then Some(s[..n])
    else None
  }

  /** What PostgreSQL stores when the row `e` is written: `None` when the write
      fails (a NUL, a width exceeded by more than spaces, a dangling owner). */
  function WriteExercise(users: map<Uuid, User>, e: Exercise): (r: Option<Exercise>)
    ensures r.Some? <==>
      && ExerciseNulFree(e) && e.createdBy in users
      && VarcharAssign(e.title, TitleMaxLength).Some?
      && VarcharAssign(e.difficulty, DifficultyMaxLength).Some?
      && VarcharAssign(e.subject, SubjectMaxLength).Some?
    ensures r.Some? ==> ExerciseRowAccepted(users, r.value)
    ensures r.Some? ==>
      && StoredAs(e.title, TitleMaxLength, r.value.title)
      && r.value.statement == e.statement && r.value.answer == e.answer
      && StoredAs(e.difficulty, DifficultyMaxLength, r.value.difficulty)
      && StoredAs(e.subject, SubjectMaxLength, r.value.subject)
      && r.value.createdBy == e.createdBy && r.value.createdAt == e.createdAt
    ensures ExerciseRowAccepted(users, e) ==> r == Some(e)
  {
    if !ExerciseNulFree(e) || e.createdBy !in users then None
    else
      match (VarcharAssign(e.title, TitleMaxLength), VarcharAssign(e.difficulty, DifficultyMaxLength),
             VarcharAssign(e.subject, SubjectMaxLength))
      case (Some(t), Some(d), Some(s)) =>
        NulFreePrefix(e.title, t);
        NulFreePrefix(e.difficulty, d);
        NulFreePrefix(e.subject, s);
        Some(e.(title := t, difficulty := d, subject := s))
      case _ => None
  }

  /** The cut is at the width, not at the last non-space: spaces inside the
      width are kept. */
  lemma CutKeepsSpacesInsideWidth()
    ensures VarcharAssign("a   ", 2) == Some("a ")
    ensures VarcharAssign("a  b", 2) == None
  {
    assert "a   "[2..] == "  " && "a   "[..2] == "a ";
    assert "a  b"[2..] == " b";
    assert !AllSpaces(" b") by { assert " b"[1] == 'b'; }
  }

  /** A prefix of a NUL-free string is NUL-free. */
  lemma NulFreePrefix(s: string, p: string)
    requires NulFree(s) && p <= s
    ensures NulFree(p)
  {
  }

  /** A title of 255 letters followed by one space is stored without the space;
      one followed by a letter is refused. */
  lemma TrailingSpacesAreCut(users: map<Uuid, User>, e: Exercise, letters: string)
    requires |letters| == TitleMaxLength
    requires e.createdBy in users && ExerciseNulFree(e.(title := letters)) && ExerciseFits(e.(title := letters))
    ensures WriteExercise(users, e.(title := letters + " ")) == Some(e.(title := letters))
    ensures WriteExercise(users, e.(title := letters + "a")) == None
  {
    var spaced := letters + " ";
    assert spaced[TitleMaxLength..] == " ";
    assert spaced[..TitleMaxLength] == letters;
    assert (letters + "a")[TitleMaxLength..] == "a";
    assert !AllSpaces((letters + "a")[TitleMaxLength..]) by {
      assert (letters + "a")[TitleMaxLength..][0] == 'a';
    }
  }

  /** Every constraint the schema declares holds of the current database. */
  ghost predicate Valid(db: Db) {
    && UniqueEmails(db.users)
    && (forall u :: u in db.users ==> UserFits(db.users[u]))
    && (forall id :: id in db.exercises ==> ExerciseRowAccepted(db.users, db.exercises[id]))
  }
}

=== FILE: register_page.dfy ===
/**
 The registration page's submit handler (frontend/src/pages/Register.jsx).

 The call to `register` is asynchronous; its settled value is an input
 (`attempt`), used only when the handler gets as far as calling it.
 */
module RegisterPage {
  import opened Wrappers
  import opened Schemas

  const MismatchMessage := "As senhas não coincidem"
  const TooShortMessage := "A senha deve ter pelo menos 6 caracteres"
  const MinPasswordLength := 6

  /** The page's state hooks. */
  datatype Form = Form(email: string, password: string, confirmPassword: string, error: string, loading: bool)

  datatype Credentials = Credentials(email: string, password: string)

  /** One run of `handleSubmit`: the form afterwards, the arguments `register`
      was called with (if it was), and where the page navigated (if it did). */
  datatype Submission = Submission(form: Form, registered: Option<Credentials>, navigatedTo: Option<string>)

  /** JavaScript's `length` of a string: UTF-16 code units, two for a character
      outside the Basic Multilingual Plane. */
  function Utf16Length(s: string): nat {
    if |s| == 0 then 0
    else (if s[0] as int >= 0x1_0000 then 2 else 1) + Utf16Length(s[1..])
  }

  /** A string of `n` characters is between `n` and `2n` code units long. */
  lemma {:induction false} Utf16LengthBounds(s: string)
    ensures |s| <= Utf16Length(s) <= 2 * |s|
  {
    if |s| > 0 {
      Utf16LengthBounds(s[1..]);
    }
  }

  /** Three emoji are six code units: the length check counts them as six
      characters. */
  lemma AstralCharactersCountTwice()
    ensures Utf16Length("\U{1F642}\U{1F642}\U{1F642}") == 6
    ensures PasswordProblem("\U{1F642}\U{1F642}\U{1F642}", "\U{1F642}\U{1F642}\U{1F642}") == None
  {
  }

  /** The two checks, in the handler's order; `None` when both pass. */
  function PasswordProblem(password: string, confirmPassword: string): (r: Option<string>)
    ensures r == None <==> password == confirmPassword && Utf16Length(password) >= MinPasswordLength
    ensures password != confirmPassword ==> r == Some(MismatchMessage)
    ensures password == confirmPassword && Utf16Length(password) < MinPasswordLength ==> r == Some(TooShortMessage)
  {
    if password != confirmPassword then Some(MismatchMessage)
    else if Utf16Length(password) < MinPasswordLength then Some(TooShortMessage)
    else None
  }

  /** `handleSubmit`. `attempt` is how `register(email, password)` settles:
      the token body, or the message of the error it throws. */
  function HandleSubmit(f: Form, attempt: Result<TokenResponse, string>): (r: Submission)
    ensures r.registered.Some? <==>
      f.password == f.confirmPassword && Utf16Length(f.password) >= MinPasswordLength
    ensures r.registered.Some? ==> r.registered.value == Credentials(f.email, f.password)
    ensures f.password != f.confirmPassword ==> r.form.error == MismatchMessage
    ensures f.password == f.confirmPassword && Utf16Length(f.password) < MinPasswordLength ==>
      r.form.error == TooShortMessage
    ensures r.navigatedTo.Some? <==> r.registered.Some? && attempt.Success?
    ensures r.navigatedTo.Some? ==> r.navigatedTo.value == "/exercises" && r.form.error == ""
    ensures r.registered.Some? && attempt.Failure? ==> r.form.error == attempt.error
    ensures r.registered.Some? ==> !r.form.loading
    ensures r.registered.None? ==> r.form.loading == f.loading
    ensures r.form.email == f.email && r.form.password == f.password
    ensures r.form.confirmPassword == f.confirmPassword
  {
    var cleared := f.(error := "");
    match PasswordProblem(f.password, f.confirmPassword)
    case Some(message) => Submission(cleared.(error := message), None, None)
    case None =>
      var calling := cleared.(loading := true);
      var called := Some(Credentials(f.email, f.password));
      match attempt
      case Success(_) => Submission(calling.(loading := false), called, Some("/exercises"))
      case Failure(message) => Submission(calling.(error := message, loading := false), called, None)
  }

  /** A short password that also mismatches reports the mismatch: the length
      check never runs. */
  lemma MismatchReportedFirst(f: Form, attempt: Result<TokenResponse, string>)
    requires f.password != f.confirmPassword
    requires Utf16Length(f.password) < MinPasswordLength
    ensures HandleSubmit(f, attempt).form.error == MismatchMessage
    ensures HandleSubmit(f, attempt).registered == None
  {
  }

  /** Six characters always pass the length check, even where JavaScript and
      character counts differ. */
  lemma SixCharactersAreEnough(f: Form, attempt: Result<TokenResponse, string>)
    requires f.password == f.confirmPassword && |f.password| >= MinPasswordLength
    ensures HandleSubmit(f, attempt).registered == Some(Credentials(f.email, f.password))
  {
    Utf16LengthBounds(f.password);
  }
}

=== FILE: schemas.dfy ===
/**
 The request and response bodies of the API (backend/app/schemas.py), and how a
 JSON request body is validated into them.

 A JSON object whose members are all strings is enough for every exercise body:
 it is a map from member name to value. Extra members are ignored, as a
 Pydantic model ignores them by default.
 */
module Schemas {
  import opened Wrappers
  import opened Models

  /** A JSON object with string members. */
  type JsonObject = map<string, string>

  /** The five content fields of an exercise, in declaration order. */
  const ExerciseFields: seq<string> := ["title", "statement", "answer", "difficulty", "subject"]

  /** `ExerciseCreate`: every content field is required. */
  datatype ExerciseCreate = ExerciseCreate(
    title: string,
    statement: string,
    answer: string,
    difficulty: string,
    subject: string)

  /** `ExerciseUpdate`: every content field is optional, `None` meaning "not supplied". */
  datatype ExerciseUpdate = ExerciseUpdate(
    title: Option<string>,
    statement: Option<string>,
    answer: Option<string>,
    difficulty: Option<string>,
    subject: Option<string>)

  /** The update with no field supplied: every field at its default `None`. */
  const EmptyUpdate := ExerciseUpdate(None, None, None, None, None)

  /** `ExerciseResponse`: the five content fields plus `id`, `created_by` and `created_at`. */
  datatype ExerciseResponse = ExerciseResponse(
    id: Uuid,
    title: string,
    statement: string,
    answer: string,
    difficulty: string,
    subject: string,
    createdBy: Uuid,
    createdAt: Timestamp)

  /** `UserResponse`: only `id`, `email` and `created_at`. */
  datatype UserResponse = UserResponse(id: Uuid, email: string, createdAt: Timestamp)

  /** `TokenResponse`, the body of a successful login or registration. */
  datatype TokenResponse = TokenResponse(accessToken: string, tokenType: string, user: UserResponse)

  const DefaultTokenType := "bearer"

  /** Builds a `TokenResponse` leaving `token_type` at its default. */
  function MakeTokenResponse(accessToken: string, user: UserResponse): (r: TokenResponse)
    ensures r.tokenType == "bearer"
    ensures r.accessToken == accessToken && r.user == user
  {
    TokenResponse(accessToken, DefaultTokenType, user)
  }

  /** The value of the named field of an update, `None` for any other name. */
  function UpdateField(u: ExerciseUpdate, name: string): Option<string> {
    if name == "title" then u.title
    else if name == "statement" then u.statement
    else if name == "answer" then u.answer
    else if name == "difficulty" then u.difficulty
    else if name == "subject" then u.subject
    else None
  }

  /** The JSON object the frontend sends for a full record. */
  function CreateJson(c: ExerciseCreate): JsonObject {
    map["title" := c.title, "statement" := c.statement, "answer" := c.answer,
        "difficulty" := c.difficulty, "subject" := c.subject]
  }

  /** `model_dump(exclude_unset=True)`: only the fields that were supplied. */
  function UpdateJson(u: ExerciseUpdate): (j: JsonObject)
    ensures forall f :: f in ExerciseFields ==> (f in j <==> UpdateField(u, f).Some?)
    ensures forall f :: f in j ==> f in ExerciseFields && Some(j[f]) == UpdateField(u, f)
  {
    var m0: JsonObject := map[];
    var m1 := if u.title.Some? then m0["title" := u.title.value] else m0;
    var m2 := if u.statement.Some? then m1["statement" := u.statement.value] else m1;
    var m3 := if u.answer.Some? then m2["answer" := u.answer.value] else m2;
    var m4 := if u.difficulty.Some? then m3["difficulty" := u.difficulty.value] else m3;
    if u.subject.Some? then m4["subject" := u.subject.value] else m4
  }

  /** Validation of a request body as `ExerciseCreate`: `None` is the 422 answer
      FastAPI gives when a required field is missing. */
  function ParseCreate(body: JsonObject): (r: Option<ExerciseCreate>)
    ensures r.Some? <==> forall f :: f in ExerciseFields ==> f in body
    ensures r.Some? ==> forall f :: f in ExerciseFields ==> CreateJson(r.value)[f] == body[f]
  {
    if "title" in body && "statement" in body && "answer" in body
       && "difficulty" in body && "subject" in body
    then Some(ExerciseCreate(body["title"], body["statement"], body["answer"],
                             body["difficulty"], body["subject"]))
    else None
  }

  /** Validation of a request body as `ExerciseUpdate`: it always succeeds, and a
      field is supplied exactly when the body has that member. */
  function ParseUpdate(body: JsonObject): (r: ExerciseUpdate)
    ensures forall f :: f in ExerciseFields ==>
      UpdateField(r, f) == (if f in body then Some(body[f]) else None)
  {
    ExerciseUpdate(
      if "title" in body then Some(body["title"]) else None,
      if "statement" in body then Some(body["statement"]) else None,
      if "answer" in body then Some(body["answer"]) else None,
      if "difficulty" in body then Some(body["difficulty"]) else None,
      if "subject" in body then Some(body["subject"]) else None)
  }

  /** A full record survives the trip through JSON and back. */
  lemma CreateRoundTrip(c: ExerciseCreate)
    ensures ParseCreate(CreateJson(c)) == Some(c)
  {
  }

  /** A patch survives being dumped with `exclude_unset` and parsed again. */
  lemma UpdateRoundTrip(u: ExerciseUpdate)
    ensures ParseUpdate(UpdateJson(u)) == u
  {
  }

  /** The empty body is a valid update, and it supplies nothing. */
  lemma EmptyBodyIsEmptyUpdate()
    ensures ParseUpdate(map[]) == EmptyUpdate
    ensures UpdateJson(EmptyUpdate) == map[]
  {
  }

  /** The value of the named content field of a full record, `""` for any other name. */
  function Field(c: ExerciseCreate, name: string): string {
    if name == "title" then c.title
    else if name == "statement" then c.statement
    else if name == "answer" then c.answer
    else if name == "difficulty" then c.difficulty
    else if name == "subject" then c.subject
    else ""
  }

  /** The five content fields of a stored row. */
  function Content(e: Exercise): ExerciseCreate {
    ExerciseCreate(e.title, e.statement, e.answer, e.difficulty, e.subject)
  }

  /** The record fits the widths of the `varchar` columns it is stored in. */
  predicate ContentFits(c: ExerciseCreate) {
    && |c.title| <= TitleMaxLength
    && |c.difficulty| <= DifficultyMaxLength
    && |c.subject| <= SubjectMaxLength
  }

  /** The response for the row stored under `id`. */
  function ExerciseToResponse(id: Uuid, e: Exercise): ExerciseResponse {
    ExerciseResponse(id, e.title, e.statement, e.answer, e.difficulty, e.subject, e.createdBy, e.createdAt)
  }

  /** The row a response describes; the inverse of `ExerciseToResponse`. */
  function ResponseRow(r: ExerciseResponse): Exercise {
    Exercise(r.title, r.statement, r.answer, r.difficulty, r.subject, r.createdBy, r.createdAt)
  }

  /** A response carries the whole row and its key: nothing is lost either way. */
  lemma ResponseCarriesWholeRow(id: Uuid, e: Exercise, r: ExerciseResponse)
    ensures ResponseRow(ExerciseToResponse(id, e)) == e
    ensures ExerciseToResponse(id, e).id == id
    ensures ExerciseToResponse(r.id, ResponseRow(r)) == r
  {
  }

  /** The response for the user stored under `id`. */
  function UserToResponse(id: Uuid, u: User): UserResponse {
    UserResponse(id, u.email, u.createdAt)
  }

  /** The password hash never reaches a response: users that differ only in
      their hash are indistinguishable through `UserResponse`. */
  lemma UserResponseOmitsPasswordHash(id: Uuid, u: User, otherHash: string)
    ensures UserToResponse(id, u) == UserToResponse(id, u.(passwordHash := otherHash))
  {
  }
}

=== FILE: wrappers.dfy ===
/** Option and Result, the two failure-carrying datatypes the rest of the model uses. */
module Wrappers {

  /** A value that may be absent: Python's `None`, JavaScript's `null`/`undefined`. */
  datatype Option<+T> = None | Some(value: T) {

    /** The value, or `default` when absent. */
    function GetOr(default: T): T {
      match this
      case Some(v) => v
      case None => default
    }
  }

  /** Truthiness of an optional string, which Python (`if difficulty:`) and
      JavaScript (`!!token`, `detail || ...`) agree on: absent and `""` are
      false, every other string is true. */
  predicate Truthy(s: Option<string>) {
    s.Some? && s.value != ""
  }

  /** Either a value or an error: a handler's return or its raised exception. */
  datatype Result<+T, +E> = Success(value: T) | Failure(error: E)
}
